=== FILE: README.md ===
# BCDI preprocessing: a Dafny model of the masking session and its bookkeeping

This project models the self-contained logic of two files of the BCDI
(Bragg coherent X-ray diffraction imaging) package.

`bcdi/preprocessing/scripts/preprocess_bcdi_combined.py` prepares a 3D
diffraction data set and its mask for phasing. The model covers:

- the parameter overrides applied before and during the loop over scans;
- where each scan's outputs go and how they are named;
- the interactive masking figures:
  - `on_click` collects polygon vertices in one pane of the figure;
  - `press_key` routes a key to the alien-removal update or the
    polygon-mask update, and rebinds the shared state to what the update
    returns;
- the in-place mask and data steps:
  - zero-event masking;
  - binarisation;
  - merging the polygon mask;
  - emptying masked voxels;
  - the photon threshold.

`dodo.py` is the doit build configuration. The model covers:

- reading the package version from the last line of `bcdi/__init__.py`;
- normalising the paths its clean-up tasks delete;
- the name of the source distribution archive.

Modules, one per file:

| module | file | models |
|---|---|---|
| `Wrappers` | wrappers.dfy | `Option` and `Result` |
| `PyText` | pytext.dfy | the Python string built-ins the two files use: `str.split`, `str.strip`, one-character `str.replace`, `str(int)` with its inverse `int()`, `posixpath.join` |
| `Dodo` | dodo.dfy | `get_version`, the delete helpers' paths, the distribution targets |
| `Panes` | panes.dfy | pane to projection axis, the candidate pixel grid, key routing |
| `Gesture` | gesture.dfy | the click step function and its lemmas |
| `MaskAlgebra` | mask_algebra.dfy | the in-place array steps, as `array3<int>` methods |
| `Session` | session.dfy | the figure state as a class; the polygon-masking stage end to end |
| `OutputNames` | output_names.dfy | home and save directories, comment strings, archive names |
| `ScanConfig` | scan_config.dfy | override rules and the loop over scans |

Some behaviour of the script is easy to miss, and the model keeps it as
written:

- **Multi-scan runs.** These keep the `center_fft` option only when it is
  one of `crop_asymmetric_ZYX`, `pad_Z` or `pad_asymmetric_ZYX`. None of
  the nine options documented beside the parameter is on that list. So a
  multi-scan run never centres, whichever documented option is set
  (`ScanConfig.DocumentedOptionsCollapse`).
- **Per-scan overrides persist.** These overrides rebind module globals:
  a fixed size disables centring, and resuming a previous masking
  disables centring, cropping and normalisation. They therefore carry
  over into later scans. Because they are idempotent, every scan is
  processed with the settings of the first (`ScanConfig.PlanScans`).
- **The ROI reset comes too late.** `roi_detector = []` (a non-empty
  `fix_size` resets the region of interest) runs after the detector object
  was built from the original region of interest. Afterwards only the
  printed value changes. `ScanConfig.ResolveGlobal` models the variable.
- **A key press without a pointer calls no update.** Such an event still
  reaches `press_key`, which relies on `except AttributeError` for a key
  press without data coordinates. The event also has no pane, so it is
  routed to no update either way, and the model treats a missing pointer
  as "no update".

## Model

| member | source | states |
|---|---|---|
| `PyText.Split` | dodo.py:19 | `s.split(sep)` has at least one field, no field contains the separator, and joining the fields with the separator gives back `s` |
| `PyText.SplitWithoutSeparator` | dodo.py:19 | a string without the separator splits into itself alone |
| `PyText.SplitAtFirstSeparator` | dodo.py:19 | the text before the first separator is the first field; the rest splits on its own |
| `PyText.SplitJoin` | dodo.py:19 | splitting the join of separator-free parts gives the parts back (split and join are inverse) |
| `PyText.SplitFieldsFromString` | dodo.py:19 | a character absent from the string is absent from every field |
| `PyText.Join` | dodo.py:19 | the joined string starts with the first part, followed by the separator when there are more parts; `SplitJoin` shows it is the inverse of `split` |
| `PyText.JoinAppend` | dodo.py:19 | joining two non-empty lists of parts back to back is joining each and putting one separator between them |
| `PyText.TrimLeft` | dodo.py:19 | `lstrip()` returns a suffix, drops only whitespace, and stops at a non-space character |
| `PyText.TrimRight` | dodo.py:19 | `rstrip()` returns a prefix, drops only whitespace, and stops at a non-space character |
| `PyText.StripKeepsNonSpace` | dodo.py:19 | a non-space character occurs in `s.strip()` exactly when it occurs in `s` |
| `PyText.TrimLeftAfterSpaces` | dodo.py:19 | leading whitespace before a non-space character is removed entirely and nothing more |
| `PyText.TrimRightKeepsPrefix` | dodo.py:19 | trailing-whitespace removal never reaches past a non-space character |
| `PyText.Strip` | dodo.py:19 | `strip()` never lengthens the string, leaves no whitespace at either end, and is empty exactly when the string is all whitespace |
| `PyText.TrimLeftBeforeNonSpace` | dodo.py:19 | `lstrip()` of a string whose tail starts with a non-space character strips only the head and keeps the tail whole |
| `PyText.TrimRightAfterNonSpace` | dodo.py:19 | `rstrip()` of a string whose head ends with a non-space character strips only the tail and keeps the head whole |
| `PyText.StripAround` | dodo.py:19 | `strip()` of text with a core that starts and ends with non-space characters removes exactly the leading whitespace before it and the trailing whitespace after it |
| `PyText.ReplaceChar` | dodo.py:39 | `replace` keeps the length and changes exactly the occurrences of the old character |
| `PyText.NatToStr` | bcdi/preprocessing/scripts/preprocess_bcdi_combined.py:329 | the decimal form of a natural number is a non-empty string of digits with no leading zero; it starts with `0` exactly for 0 |
| `PyText.IntToStr` | bcdi/preprocessing/scripts/preprocess_bcdi_combined.py:329 | `str(i)` is a non-empty string of digits, possibly after a leading minus sign; `IntToStrSign` ties the sign to negative numbers and `IntToStrCanonical` gives the canonical form |
| `PyText.IntToStrCanonical` | bcdi/preprocessing/scripts/preprocess_bcdi_combined.py:329 | `str(i)` is Python's canonical form: digits without a leading zero, after a minus sign only when the number is not 0 (never `-0`) |
| `PyText.ParseNatToStr` | bcdi/preprocessing/scripts/preprocess_bcdi_combined.py:329 | reading the decimal digits back gives the number |
| `PyText.ParseIntToStr` | bcdi/preprocessing/scripts/preprocess_bcdi_combined.py:329 | `int(str(i)) == i` |
| `PyText.CanonicalNatIsPrinted` | bcdi/preprocessing/scripts/preprocess_bcdi_combined.py:329 | every digit string without a leading zero is the printed form of its value, so no other printing of a natural number is canonical |
| `PyText.CanonicalIntIsPrinted` | bcdi/preprocessing/scripts/preprocess_bcdi_combined.py:329 | every canonical integer literal is `str` of its value; with `int(str(i)) == i` this makes the printed form exactly Python's |
| `PyText.IntToStrSign` | bcdi/preprocessing/scripts/preprocess_bcdi_combined.py:329 | the printed number starts with `-` exactly when it is negative |
| `PyText.IntToStrInjective` | bcdi/preprocessing/scripts/preprocess_bcdi_combined.py:329 | distinct scan numbers print differently |
| `PyText.IntToStrOmits` | bcdi/preprocessing/scripts/preprocess_bcdi_combined.py:329 | a printed integer holds only digits and a leading minus sign, so a scan number never holds a path separator and a shape or binning number never holds the `_` that separates them |
| `PyText.PosixJoin` | dodo.py:39 | an absolute second component replaces the first; otherwise the result starts with the first component and ends with the second, with exactly one `/` inserted between them when the first is non-empty and does not already end in `/`, and nothing inserted otherwise |
| `Dodo.GetVersion` | dodo.py:17-20 | a version read from the file contains no `"` and no `=`; an empty file is an `IndexError` |
| `Dodo.VersionOfLine` | dodo.py:19 | the version parse of one line yields text without `"` or `=`, or an `IndexError` |
| `Dodo.SplitHasSecondField` | dodo.py:19 | indexing field 1 of a split fails exactly when the separator is absent |
| `Dodo.GetVersionSucceedsIff` | dodo.py:19 | the parse succeeds exactly when the file is non-empty, its last line has `=`, and the text after the first `=` (up to the next one) has `"` |
| `Dodo.GetVersionLastLineOnly` | dodo.py:19 | only the last line of the file matters |
| `Dodo.GetVersionBetweenQuotes` | dodo.py:17-20 | whenever the text after the first `=` of the last line is any `"`-free text, then `"v"`, then anything, the version read is exactly `v`, whatever whitespace surrounds it |
| `Dodo.GetVersionAfterOneQuote` | dodo.py:17-20 | when the text after the first `=` of the last line holds a single `"`, the version is everything after it with trailing whitespace stripped |
| `Dodo.GetVersionOfAssignment` | dodo.py:17-20 | for a last line `name = "v"` (any whitespace after `=`, any `=`-free tail such as the line break) the result is exactly `v`; the common case of `GetVersionBetweenQuotes` |
| `Dodo.NormalisedPath` | dodo.py:38-39 | the path a delete helper removes never contains a backslash, whatever its inputs |
| `Dodo.NormalisedPathKeepsComponents` | dodo.py:106-107 | for backslash-free inputs and a relative name, the path starts with the project directory and ends with the name |
| `Dodo.DistArchiveList` | dodo.py:149-164 | the build task's `targets` and the description check's `file_dep` exist exactly when the version can be read, and are the single archive `dist/bcdi-<version>.tar.gz` |
| `Dodo.DistArchiveInjective` | dodo.py:153 | different versions never share an archive name |
| `Dodo.DistArchiveListDeterminesVersion` | dodo.py:149-164 | two version files that give the same archive list give the same version |
| `Panes.PaneDim` | bcdi/preprocessing/scripts/preprocess_bcdi_combined.py:200-211 | a pane has an axis exactly when it is `ax0`, `ax1` or `ax2`, and the axis is at most 2 |
| `Panes.PaneDimInjective` | bcdi/preprocessing/scripts/preprocess_bcdi_combined.py:200-211 | different visible panes stand for different axes |
| `Panes.Grid` | bcdi/preprocessing/scripts/preprocess_bcdi_combined.py:222-233 | the meshgrid of a w-by-h image has w·h points and every one lies inside the image |
| `Panes.GridHasEveryPixel` | bcdi/preprocessing/scripts/preprocess_bcdi_combined.py:222-233 | every pixel `(x, y)` is a candidate, at index `y·w + x` |
| `Panes.CandidateGrid` | bcdi/preprocessing/scripts/preprocess_bcdi_combined.py:222-236 | the click axis is the bound pane's axis; the bound pane `ax0`, `ax1` or `ax2` gives exactly the grid of its projection, nx·ny, nx·nz or ny·nz candidates, each inside that projection; no bound pane (or `ax3`) gives neither axis nor candidates |
| `Panes.Dispatch` | bcdi/preprocessing/scripts/preprocess_bcdi_combined.py:199-254 | no update is called for a pane other than `ax0`-`ax2`, a missing pointer or neither stage flag; otherwise the alien update runs exactly when `flag_aliens` is set, with the pointer and the pane's axis; the mask update gets the bound pane's grid |
| `Gesture.OnClick` | bcdi/preprocessing/scripts/preprocess_bcdi_combined.py:164-186 | a click never changes the pause flag, and changes nothing unless it is in a pane while not paused |
| `Gesture.ClickAppendsIff` | bcdi/preprocessing/scripts/preprocess_bcdi_combined.py:173-181 | the vertex list grows exactly when the click is in a pane, not paused, and in the bound pane or with none bound; it then gains exactly the clicked position and binds that pane |
| `Gesture.ClickInOtherPaneRestarts` | bcdi/preprocessing/scripts/preprocess_bcdi_combined.py:182-185 | a non-paused click in another pane empties the list and unbinds, without keeping the point |
| `Gesture.OnClickKeepsCoherent` | bcdi/preprocessing/scripts/preprocess_bcdi_combined.py:177-185 | vertices exist only while a pane is bound, before and after any click |
| `Gesture.Clicks` | bcdi/preprocessing/scripts/preprocess_bcdi_combined.py:164-186 | no run of clicks changes the pause flag, and vertices stay tied to a bound pane after any run of clicks |
| `Gesture.PausedClicksChangeNothing` | bcdi/preprocessing/scripts/preprocess_bcdi_combined.py:175 | while paused, no run of clicks changes anything |
| `Gesture.ClicksInOnePane` | bcdi/preprocessing/scripts/preprocess_bcdi_combined.py:177-181 | clicks in one pane (or outside all panes) append their positions in order and leave that pane bound |
| `MaskAlgebra.ColumnSum` | bcdi/preprocessing/scripts/preprocess_bcdi_combined.py:474 | for counts, every frame's value at a pixel lies between 0 and the pixel's sum along the rocking axis |
| `MaskAlgebra.ColumnSumZeroIff` | bcdi/preprocessing/scripts/preprocess_bcdi_combined.py:471-474 | for counts, the sum along the rocking axis is 0 exactly when the pixel is 0 in every frame |
| `MaskAlgebra.Copy` | bcdi/preprocessing/scripts/preprocess_bcdi_combined.py:617 | `np.copy` is a fresh array with the same shape and contents |
| `MaskAlgebra.Zeros` | bcdi/preprocessing/scripts/preprocess_bcdi_combined.py:618 | `np.zeros` is a fresh array of that shape holding 0 |
| `MaskAlgebra.MaskZeroEvents` | bcdi/preprocessing/scripts/preprocess_bcdi_combined.py:471-475 | a voxel becomes masked in every frame where its column sums to 0; every other voxel keeps its value |
| `MaskAlgebra.Binarise` | bcdi/preprocessing/scripts/preprocess_bcdi_combined.py:582 | every nonzero value becomes 1 and zeros stay; the mask ends binary; binarising a binary mask changes nothing |
| `MaskAlgebra.ZeroMasked` | bcdi/preprocessing/scripts/preprocess_bcdi_combined.py:619 | voxels whose mask is 1 become 0, others keep their counts; afterwards masked voxels hold no counts |
| `MaskAlgebra.MergeMask` | bcdi/preprocessing/scripts/preprocess_bcdi_combined.py:644 | the mask becomes its union with the nonzero voxels of the polygon mask |
| `MaskAlgebra.ApplyPhotonThreshold` | bcdi/preprocessing/scripts/preprocess_bcdi_combined.py:680-682 | with a nonzero threshold, every voxel below it is masked and emptied; nothing else changes and no voxel is unmasked |
| `MaskAlgebra.FinaliseMaskAndData` | bcdi/preprocessing/scripts/preprocess_bcdi_combined.py:650-702 | afterwards a voxel is masked exactly when it was masked before or fell below a nonzero threshold; the mask is binary, masked voxels hold 0, and every other voxel keeps its counts |
| `Session.Handle` | bcdi/preprocessing/scripts/preprocess_bcdi_combined.py:164-254 | one event of a figure as a pure step: it can close an open figure but never reopens one; the polygon figure never changes `mask` or the frame indices; the alien figure never changes the gesture or the polygon mask |
| `Session.Run` | bcdi/preprocessing/scripts/preprocess_bcdi_combined.py:639-642 | the event loop of `plt.show()` as a fold of `Handle` that stops at the first event after which the figure is closed; the same three guarantees hold over any run of events |
| `Session.EventsAfterCloseDropped` | bcdi/preprocessing/scripts/preprocess_bcdi_combined.py:250-251 | once a key press closes the figure, no later event is handled |
| `Session.RunOfClicks` | bcdi/preprocessing/scripts/preprocess_bcdi_combined.py:164-186 | in the polygon figure a run of clicks alone changes only the gesture, which moves exactly as `Gesture.Clicks` says |
| `Session.MaskingFigure.AlienStage` | bcdi/preprocessing/scripts/preprocess_bcdi_combined.py:549-559 | the alien figure keeps fresh copies of data and mask, starts at the given frames, with width and colour bar 5 |
| `Session.MaskingFigure.PolygonStage` | bcdi/preprocessing/scripts/preprocess_bcdi_combined.py:607-619 | the data is copied before masked voxels are emptied for display; the polygon mask starts empty; no pane bound, no vertex, not paused |
| `Session.MaskingFigure.Click` | bcdi/preprocessing/scripts/preprocess_bcdi_combined.py:164-186 | the figure's vertex list and bound pane move exactly as `Gesture.OnClick` says; nothing else changes |
| `Session.MaskingFigure.PressKey` | bcdi/preprocessing/scripts/preprocess_bcdi_combined.py:189-254 | routing is `Dispatch`; with no update the state is untouched; otherwise the figure state becomes exactly `Handle` of the key press: rebound to the update's reply, the bound pane released when the reply has no click axis, the figure closed on a stop request, `mask` never rebound by the polygon figure |
| `Session.MaskingFigure.TakeAliensReply` | bcdi/preprocessing/scripts/preprocess_bcdi_combined.py:214-220 | the alien figure's data, mask, box width, colour bar and frame indices become the reply's; the figure stays open only if the reply does not ask to stop; the figure remains well-formed |
| `Session.MaskingFigure.TakeMaskReply` | bcdi/preprocessing/scripts/preprocess_bcdi_combined.py:238-251 | the polygon figure's data, polygon mask, pause flag, vertices, box width and colour bar become the reply's; the bound pane is released exactly when the reply has no click axis; the figure stays open only if the reply does not ask to stop |
| `Session.MaskingFigure.Show` | bcdi/preprocessing/scripts/preprocess_bcdi_combined.py:639-642 | events reach the handlers in order until the figure closes: the figure state afterwards is exactly the fold `Run` of the events from the state before |
| `Session.MaskingFigure.EndPolygonStage` | bcdi/preprocessing/scripts/preprocess_bcdi_combined.py:644-645 | the polygon mask is merged into the mask and `data` is rebound to the copy taken at the start |
| `Session.MaskPolygons` | bcdi/preprocessing/scripts/preprocess_bcdi_combined.py:607-648 | over the whole polygon stage, whatever the events and replies, `data` ends with exactly the counts it had before, and the mask only gains masked voxels |
| `OutputNames.HomeDir` | bcdi/preprocessing/scripts/preprocess_bcdi_combined.py:328-334 | the scan's home directory starts with the root folder and ends with `/` |
| `OutputNames.HomeDirReadBack` | bcdi/preprocessing/scripts/preprocess_bcdi_combined.py:328-330 | outside P10 the home directory is the root folder and the sample name, then a component that is exactly the printed scan number |
| `OutputNames.P10HomeDirReadBack` | bcdi/preprocessing/scripts/preprocess_bcdi_combined.py:332-334 | at P10 the component after the root folder is exactly the spec file's name |
| `OutputNames.SaveDir` | bcdi/preprocessing/scripts/preprocess_bcdi_combined.py:340-346 | the save directory lies inside the home directory |
| `OutputNames.ScanComment` | bcdi/preprocessing/scripts/preprocess_bcdi_combined.py:327-456 | the comment starts with the user's comment |
| `OutputNames.Tag` | bcdi/preprocessing/scripts/preprocess_bcdi_combined.py:691 | a shape or binning tag starts with `_` |
| `OutputNames.TagReadBack` | bcdi/preprocessing/scripts/preprocess_bcdi_combined.py:691 | splitting a tag after its leading `_` on `_` gives the three printed numbers, and reading them back gives the numbers themselves |
| `OutputNames.FinalComment` | bcdi/preprocessing/scripts/preprocess_bcdi_combined.py:691-768 | the final comment starts with the scan comment followed by the tag of the data shape, and ends with the binning tag |
| `OutputNames.FinalCommentReadBack` | bcdi/preprocessing/scripts/preprocess_bcdi_combined.py:691-768 | the numbers after the scan comment read back as fields: the data shape, the binned shape exactly when the first binning factor is not 1, and the binning factors last, so the shapes and factors needed later for the voxel size can be recovered from the final comment |
| `OutputNames.DataFile` | bcdi/preprocessing/scripts/preprocess_bcdi_combined.py:785 | the data archive lies in the save directory and its name ends with the comment; it is the path given to `np.savez_compressed`, which appends `.npz` |
| `OutputNames.MaskFile` | bcdi/preprocessing/scripts/preprocess_bcdi_combined.py:786 | the mask archive lies in the save directory and its name ends with the comment; it is the path given to `np.savez_compressed`, which appends `.npz` |
| `OutputNames.ArchiveScanReadBack` | bcdi/preprocessing/scripts/preprocess_bcdi_combined.py:785-786 | in both archive names, the save directory is followed by `S` and then a `_`-field that is exactly the printed scan number |
| `OutputNames.DataFileCarriesShape` | bcdi/preprocessing/scripts/preprocess_bcdi_combined.py:691-785 | with the final comment in its name, the data archive name read after the scan comment splits on `_` into the data shape, the binned shape when binned, and the binning factors, the numbers needed later for the voxel size |
| `OutputNames.SaveDirSuffixIff` | bcdi/preprocessing/scripts/preprocess_bcdi_combined.py:340-346 | the save directory ends in `pynx/` exactly when the data is orthogonalised (`pynxraw/` otherwise) |
| `OutputNames.ScanCommentTags` | bcdi/preprocessing/scripts/preprocess_bcdi_combined.py:340-341 | `_ortho` follows the user's comment exactly when orthogonalised; `_norm` ends it exactly when normalised |
| `OutputNames.DataFileIsNotMaskFile` | bcdi/preprocessing/scripts/preprocess_bcdi_combined.py:785-786 | a scan's data archive and mask archive never share a path, whatever the comments |
| `OutputNames.DistinctHomesDistinctPaths` | bcdi/preprocessing/scripts/preprocess_bcdi_combined.py:329 | paths below the home directories of two different scans differ |
| `OutputNames.DistinctScansDistinctFiles` | bcdi/preprocessing/scripts/preprocess_bcdi_combined.py:328-346 | outside P10, two different scans never write the same data or mask archive |
| `ScanConfig.ResolveGlobal` | bcdi/preprocessing/scripts/preprocess_bcdi_combined.py:289-322 | the global overrides touch only `use_rawdata`, `center_fft` and `roi_detector`; `use_rawdata` can only be switched off, `center_fft` only becomes `do_nothing`, the ROI only becomes empty, and it is kept whenever `fix_size` is empty |
| `ScanConfig.ScanStep` | bcdi/preprocessing/scripts/preprocess_bcdi_combined.py:368-399 | the per-scan overrides touch only `center_fft`, `fix_size` and `normalize_flux`; the size and normalisation change only when resuming a previous masking, and only to empty and off; centring ends as `do_nothing` exactly when it was already, `fix_size` is non-empty, or a previous masking is resumed |
| `ScanConfig.PlanOf` | bcdi/preprocessing/scripts/preprocess_bcdi_combined.py:327-456 | a scan's plan is for that scan, its save directory lies strictly inside its home directory, and its comment starts with the user's comment |
| `ScanConfig.UseRawdataIff` | bcdi/preprocessing/scripts/preprocess_bcdi_combined.py:289-291 | raw detector-frame data is used exactly when requested and the scan is not an energy scan |
| `ScanConfig.MultiScanCenterFft` | bcdi/preprocessing/scripts/preprocess_bcdi_combined.py:315-317 | with several scans, an option off the allow-list becomes `do_nothing`; with one scan or an allowed option it is kept |
| `ScanConfig.DocumentedOptionsCollapse` | bcdi/preprocessing/scripts/preprocess_bcdi_combined.py:315-317 | with several scans, every documented option ends as `do_nothing` |
| `ScanConfig.FixSizeOverrides` | bcdi/preprocessing/scripts/preprocess_bcdi_combined.py:320-372 | a non-empty `fix_size` empties the ROI and, once the scan starts, disables centring |
| `ScanConfig.ReloadOverrides` | bcdi/preprocessing/scripts/preprocess_bcdi_combined.py:396-399 | resuming a previous masking disables centring, cropping and normalisation |
| `ScanConfig.OverridesIdempotent` | bcdi/preprocessing/scripts/preprocess_bcdi_combined.py:315-372 | applying either override pass twice is the same as applying it once |
| `ScanConfig.PlanKeepsUntriggeredSettings` | bcdi/preprocessing/scripts/preprocess_bcdi_combined.py:368-399 | without `fix_size` and without resuming, no per-scan override fires: every scan keeps the resolved settings, so it is normalised exactly when `normalize_flux` is set |
| `ScanConfig.PlanScans` | bcdi/preprocessing/scripts/preprocess_bcdi_combined.py:324-372 | one plan per scan, in order; although the per-scan overrides persist from scan to scan, every scan gets the plan built from the settings of the first |

## Left out

- The foreign updates `pru.update_aliens_combined` and `pru.update_mask_combined` (marking, unmarking, frame stepping, brush width, quitting) are not modelled. Their return tuples arrive as parameters with each key event.
- Session.MaskingFigure.PressKey: requires the foreign updates to return volumes of the figure's shape. The script indexes the mask with the returned polygon mask and would fail otherwise. The alien update's `data` and `mask` are passed back to it beside `original_data` and `original_mask` on the next key press (bcdi/preprocessing/scripts/preprocess_bcdi_combined.py:215-218), and `data` is later indexed with `mask` (bcdi/preprocessing/scripts/preprocess_bcdi_combined.py:619); both need the volume's shape.
- Session.MaskingFigure.PolygonStage: requires `data` and `mask` to be distinct arrays. When the alien stage has run, they are whatever arrays the foreign alien update returned last, so the model assumes that update never returns the same array for both.
- MaskAlgebra.ApplyPhotonThreshold: requires `data` and `mask` to be distinct arrays, assuming as above that the foreign updates never return one array for both. If they were the same array, the threshold step would read counts that it had just overwritten with mask values.
- MaskAlgebra.FinaliseMaskAndData: requires `data` and `mask` to be distinct arrays, for the same reason as `ApplyPhotonThreshold`.
- Session.MaskPolygons: same two assumptions as `PressKey` and `PolygonStage`. It also assumes the foreign updates never write into the arrays passed to them (`original_data`, and `mask` as `original_mask`, at bcdi/preprocessing/scripts/preprocess_bcdi_combined.py:240-241): their replies are parameters, so both guarantees about `data` and `mask` rest on this.
- The alien-removal stage has no end-to-end method. Its resulting `data` and `mask` are whatever arrays the foreign update returned last. `MaskAlgebra.Binarise` models the binarisation applied to them.
- The foreign preprocessing calls are not modelled: `pru.gridmap`, `pru.center_fft`, `pru.mean_filter`, `scipy.signal.medfilt2d`, `pu.bin_data` and the detector and setup classes. The array shapes they produce enter `OutputNames.FinalComment` as parameters.
- MaskAlgebra.FinaliseMaskAndData: leaves out the isolated-pixel and median filtering between the zeroing and the threshold, because it is foreign. It also leaves out the NaN and Inf scrubbing, because it is floating-point specific.
- Data and masks are integer arrays. Floating-point counts, `np.rint` of the pointer position and the `log10` display scaling are not modelled.
- Plotting and window handling are not modelled: figures, titles, colour bars, `waitforbuttonpress`, and `close_event` calling `sys.exit`.
- File I/O is not modelled: file dialogs, loading and saving of npz, mat and vti files, `mkdir`, and the debugging-figure and q-value file names. Reloading a previous masking is modelled only as its parameter overrides.
- Orthogonalisation with xrayutilities and the q-vector and voxel-size arithmetic are not modelled.
- At P10 the spec file name comes from `specfile_name % scan`. It is a parameter of the naming functions.
- `setup.beamline` is taken to be the `beamline` parameter.
- `os.path.join` is modelled as the POSIX `posixpath.join`. The Windows form, which also treats drive letters and backslashes as separators, is not modelled.
- `get_path()` and reading `bcdi/__init__.py` are parameters: the project directory, and the file as its list of lines.
- The doit task dictionaries are not modelled, apart from the archive names in their targets and file dependencies. The actions (black, pycodestyle, coverage, sphinx, setup, twine, `rmtree`, `unlink`) are build tooling and I/O.
- `bcdi/graph/scripts/3Dobject_movie.py`, `bcdi/utils/scripts/angular_avg_3Dto1D.py` and `tests/facet_recognition/test_facet_utils.py` are not part of this model.

=== FILE: dodo.dfy ===
/**
 * The string logic of the doit configuration file: reading the package
 * version from the last line of the package's `__init__` file, normalising
 * the paths the clean-up tasks delete, and naming the source distribution
 * archive after the version.  Reading the file, `get_path()` (the directory
 * holding the configuration) and the deletions themselves are I/O: the file
 * arrives as its list of lines and the directory as a parameter.
 */
module Dodo {
  import opened Wrappers
  import opened PyText

  /** The only exception the version parse can raise once the file is read. */
  datatype PyError = IndexError

  /** `readlines()[-1].split("=")[1].strip().split('"')[1]`: each indexing
      raises `IndexError` when the list it indexes is too short. */
  function GetVersion(lines: seq<string>): (r: Result<string, PyError>)
    ensures |lines| == 0 ==> r == Failure(IndexError)
    ensures r.Success? ==> '"' !in r.value && '=' !in r.value
  {
    if |lines| == 0 then Failure(IndexError) else VersionOfLine(lines[|lines| - 1])
  }

  /** `line.split("=")[1].strip().split('"')[1]`. */
  function VersionOfLine(line: string): (r: Result<string, PyError>)
    ensures r.Success? ==> '"' !in r.value && '=' !in r.value
  {
    var fields := Split(line, '=');
    if |fields| < 2 then Failure(IndexError)
    else
      var quoted := Split(Strip(fields[1]), '"');
      if |quoted| < 2 then Failure(IndexError)
      else
        StripKeepsNonSpace(fields[1], '=');
        SplitFieldsFromString(Strip(fields[1]), '"', '=', 1);
        Success(quoted[1])
  }

  /** A string splits into at least two fields exactly when it holds the
      separator. */
  lemma SplitHasSecondField(s: string, sep: char)
    ensures |Split(s, sep)| >= 2 <==> sep in s
  {
    if sep !in s {
      SplitWithoutSeparator(s, sep);
    }
  }

  /** The parse fails (with `IndexError`) exactly when the file is empty,
      its last line has no `=`, or the text after the first `=` (up to a
      second one) has no double quote. */
  lemma GetVersionSucceedsIff(lines: seq<string>)
    ensures GetVersion(lines).Success? <==>
      |lines| > 0 && '=' in lines[|lines| - 1]
      && '"' in Split(lines[|lines| - 1], '=')[1]
  {
    if |lines| > 0 {
      var last := lines[|lines| - 1];
      SplitHasSecondField(last, '=');
      if '=' in last {
        var field := Split(last, '=')[1];
        StripKeepsNonSpace(field, '"');
        SplitHasSecondField(Strip(field), '"');
      }
    }
  }

  /** Only the last line matters. */
  lemma GetVersionLastLineOnly(a: seq<string>, b: seq<string>)
    requires |a| > 0 && |b| > 0 && a[|a| - 1] == b[|b| - 1]
    ensures GetVersion(a) == GetVersion(b)
  {
  }

  /** The text after the only `=` of a line is its second field. */
  lemma SplitAssignment(name: string, rhs: string)
    requires '=' !in name && '=' !in rhs
    ensures Split(name + "=" + rhs, '=') == [name, rhs]
  {
    SplitAtFirstSeparator(name, '=', rhs);
    SplitWithoutSeparator(rhs, '=');
  }

  /** Whatever surrounds them, the version is the text between the first
      two double quotes of the text after the first `=` (up to the next
      `=`): whitespace stripping never reaches past a quote. */
  lemma GetVersionBetweenQuotes(lines: seq<string>, pre: string, v: string, post: string)
    requires |lines| > 0 && |Split(lines[|lines| - 1], '=')| >= 2
    requires Split(lines[|lines| - 1], '=')[1] == pre + "\"" + v + "\"" + post
    requires '"' !in pre && '"' !in v
    ensures GetVersion(lines) == Success(v)
  {
    var left := TrimLeft(pre);
    StripQuotedField(pre, v, post);
    assert '"' !in left by {
      assert forall k :: 0 <= k < |left| ==> left[k] == pre[|pre| - |left| + k];
    }
    SecondQuotedField(left, v, TrimRight(post));
  }

  /** Stripping a field that holds a quoted text strips only what lies
      outside the quotes. */
  lemma StripQuotedField(pre: string, v: string, post: string)
    ensures Strip(pre + "\"" + v + "\"" + post) == TrimLeft(pre) + ['"'] + (v + ['"'] + TrimRight(post))
  {
    var inner := "\"" + v + "\"";
    assert inner[0] == '"' && inner[|inner| - 1] == '"';
    assert pre + "\"" + v + "\"" + post == pre + inner + post;
    StripAround(pre, inner, post);
    QuotedRegroup(TrimLeft(pre), v, TrimRight(post));
  }

  /** Regrouping the quoted text; kept apart so that the solver proves it
      without the stripping facts in scope. */
  lemma QuotedRegroup(a: string, v: string, b: string)
    ensures a + ("\"" + v + "\"") + b == a + ['"'] + (v + ['"'] + b)
  {
  }

  /** The second `"`-separated field of `..."v"...` is `v`. */
  lemma SecondQuotedField(left: string, v: string, after: string)
    requires '"' !in left && '"' !in v
    ensures |Split(left + ['"'] + (v + ['"'] + after), '"')| >= 2
    ensures Split(left + ['"'] + (v + ['"'] + after), '"')[1] == v
  {
    SplitAtFirstSeparator(left, '"', v + ['"'] + after);
    SplitAtFirstSeparator(v, '"', after);
  }

  /** With a single double quote in the text after the first `=`, the
      version is everything after that quote, trailing whitespace (such as
      the line break `readlines` keeps) stripped. */
  lemma GetVersionAfterOneQuote(lines: seq<string>, pre: string, tail: string)
    requires |lines| > 0 && |Split(lines[|lines| - 1], '=')| >= 2
    requires Split(lines[|lines| - 1], '=')[1] == pre + "\"" + tail
    requires '"' !in pre && '"' !in tail
    ensures GetVersion(lines) == Success(TrimRight(tail))
  {
    var left, right := TrimLeft(pre), TrimRight(tail);
    StripOneQuoteField(pre, tail);
    QuoteFreeTrims(pre, tail);
    OneQuoteSplit(left, right);
  }

  /** Trimming never brings in a quote. */
  lemma QuoteFreeTrims(pre: string, tail: string)
    requires '"' !in pre && '"' !in tail
    ensures '"' !in TrimLeft(pre) && '"' !in TrimRight(tail)
  {
    var left, right := TrimLeft(pre), TrimRight(tail);
    assert forall k :: 0 <= k < |left| ==> left[k] == pre[|pre| - |left| + k];
    assert forall k :: 0 <= k < |right| ==> right[k] == tail[k];
  }

  /** Stripping a field around its one quote strips only the ends. */
  lemma StripOneQuoteField(pre: string, tail: string)
    ensures Strip(pre + "\"" + tail) == TrimLeft(pre) + ['"'] + TrimRight(tail)
  {
    assert pre + "\"" + tail == pre + ['"'] + tail;
    StripAround(pre, ['"'], tail);
  }

  /** A text with one quote splits on it into the text before and after. */
  lemma OneQuoteSplit(left: string, right: string)
    requires '"' !in left && '"' !in right
    ensures |Split(left + ['"'] + right, '"')| >= 2 && Split(left + ['"'] + right, '"')[1] == right
  {
    SplitAtFirstSeparator(left, '"', right);
    SplitWithoutSeparator(right, '"');
  }

  /** The usual last line, an assignment `name = "v"` with any whitespace
      after the `=` and anything without `=` after the closing quote (such
      as the line break `readlines` keeps), yields exactly the quoted text. */
  lemma GetVersionOfAssignment(lines: seq<string>, name: string, ws: string, v: string, tail: string)
    requires '=' !in name && '=' !in tail
    requires forall k :: 0 <= k < |ws| ==> IsSpace(ws[k])
    requires '"' !in v && '=' !in v
    ensures GetVersion(lines + [name + "=" + ws + "\"" + v + "\"" + tail]) == Success(v)
  {
    var rhs := ws + "\"" + v + "\"" + tail;
    var line := name + "=" + ws + "\"" + v + "\"" + tail;
    var all := lines + [line];
    assert all[|all| - 1] == line;
    assert line == name + "=" + rhs;
    SpacesOmit(ws, '=');
    SpacesOmit(ws, '"');
    assert '=' !in rhs by {
      assert rhs == ws + ("\"" + v + "\"" + tail);
    }
    SplitAssignment(name, rhs);
    GetVersionBetweenQuotes(all, ws, v, tail);
  }

  /** Whitespace holds no character that is not whitespace. */
  lemma SpacesOmit(ws: string, c: char)
    requires forall k :: 0 <= k < |ws| ==> IsSpace(ws[k])
    requires !IsSpace(c)
    ensures c !in ws
  {
    forall k | 0 <= k < |ws|
      ensures ws[k] != c
    {
      assert IsSpace(ws[k]);
    }
  }

  /** The path `delete_dir` and `delete_coverage` remove:
      `os.path.join(get_path(), name).replace("\\", "/")`. */
  function NormalisedPath(projectDir: string, name: string): (path: string)
    ensures '\\' !in path
  {
    ReplaceChar(PosixJoin(projectDir, name), '\\', '/')
  }

  /** Normalisation changes nothing but backslashes: a relative name free
      of backslashes ends the path, and so does a project directory free of
      them begin it. */
  lemma NormalisedPathKeepsComponents(projectDir: string, name: string)
    requires '\\' !in projectDir && '\\' !in name
    requires !(|name| > 0 && name[0] == '/')
    ensures var path := NormalisedPath(projectDir, name);
      |path| >= |projectDir| + |name|
      && path[..|projectDir|] == projectDir
      && path[|path| - |name|..] == name
  {
    var joined := PosixJoin(projectDir, name);
    var path := NormalisedPath(projectDir, name);
    assert '\\' !in joined by {
      if projectDir == [] || projectDir[|projectDir| - 1] == '/' {
        assert joined == projectDir + name;
      } else {
        assert joined == projectDir + "/" + name;
      }
    }
    assert path == joined;
  }

  /** The source distribution archive named after the version. */
  function DistArchive(version: string): string {
    "dist/bcdi-" + version + ".tar.gz"
  }

  /** The one-element archive list both distribution tasks name: the
      `targets` of the build-distribution task and the `file_dep` of the
      description-check task, `[f"dist/bcdi-{get_version()}.tar.gz"]`. */
  function DistArchiveList(lines: seq<string>): (r: Result<seq<string>, PyError>)
    ensures r.Success? <==> GetVersion(lines).Success?
    ensures r.Success? ==> r.value == ["dist/bcdi-" + GetVersion(lines).value + ".tar.gz"]
  {
    match GetVersion(lines)
    case Success(v) => Success([DistArchive(v)])
    case Failure(e) => Failure(e)
  }

  /** Two version files that give the same archive list give the same
      version: the archive names the version it was built from. */
  lemma DistArchiveListDeterminesVersion(a: seq<string>, b: seq<string>)
    requires DistArchiveList(a).Success? && DistArchiveList(a) == DistArchiveList(b)
    ensures GetVersion(a) == GetVersion(b)
  {
    DistArchiveInjective(GetVersion(a).value, GetVersion(b).value);
  }

  /** Different versions never share an archive name. */
  lemma DistArchiveInjective(v1: string, v2: string)
    requires DistArchive(v1) == DistArchive(v2)
    ensures v1 == v2
  {
    var a := DistArchive(v1);
    assert |a| == |v1| + 17 == |v2| + 17;
    assert v1 == a[10..10 + |v1|] == v2;
  }
}

=== FILE: gesture.dfy ===
/**
 * Collection of polygon vertices by mouse clicks in the polygon-masking
 * stage (`on_click`).  The state is the vertex list `xy`, the pane the
 * current gesture is bound to (`previous_axis`) and the pause flag that
 * lets the operator pan and zoom without adding vertices.
 */
module Gesture {
  import opened Wrappers
  import opened Panes

  /** A mouse click: outside every pane, or in a pane at the pointer
      position rounded to the nearest pixel. */
  datatype ClickEvent = Outside | InPane(pane: Pane, x: int, y: int)

  datatype GestureState = GestureState(xy: seq<Vertex>, previousAxis: Option<Pane>, flagPause: bool)

  /** One click: ignored outside the panes or while paused; otherwise the
      point is appended when the click is in the bound pane (binding the pane
      on the first click), and the gesture restarts empty when it is not. */
  function OnClick(g: GestureState, ev: ClickEvent): (r: GestureState)
    ensures r.flagPause == g.flagPause
    ensures r != g ==> ev.InPane? && !g.flagPause
  {
    match ev
    case Outside => g
    case InPane(pane, x, y) =>
      if g.flagPause then g
      else if g.previousAxis == Some(pane) || g.previousAxis.None? then
        g.(xy := g.xy + [(x, y)], previousAxis := Some(pane))
      else
        g.(xy := [], previousAxis := None)
  }

  /** A click grows the vertex list exactly when it lands in a pane, the
      stage is not paused and the pane is the bound one (or none is bound);
      then it appends exactly the clicked position and binds that pane. */
  lemma ClickAppendsIff(g: GestureState, ev: ClickEvent)
    ensures |OnClick(g, ev).xy| > |g.xy| <==>
      ev.InPane? && !g.flagPause && (g.previousAxis.None? || g.previousAxis == Some(ev.pane))
    ensures |OnClick(g, ev).xy| > |g.xy| ==>
      OnClick(g, ev) == GestureState(g.xy + [(ev.x, ev.y)], Some(ev.pane), g.flagPause)
  {
  }

  /** A click in another pane than the bound one discards the collected
      vertices and unbinds, without keeping the clicked point. */
  lemma ClickInOtherPaneRestarts(g: GestureState, pane: Pane, x: int, y: int)
    requires !g.flagPause && g.previousAxis.Some? && g.previousAxis != Some(pane)
    ensures OnClick(g, InPane(pane, x, y)) == GestureState([], None, false)
  {
  }

  /** Vertices are only ever collected while a pane is bound. */
  predicate Coherent(g: GestureState) {
    g.previousAxis.None? ==> g.xy == []
  }

  lemma OnClickKeepsCoherent(g: GestureState, ev: ClickEvent)
    requires Coherent(g)
    ensures Coherent(OnClick(g, ev))
  {
  }

  /** A run of clicks, handled in order: no click changes the pause flag,
      and vertices stay tied to a bound pane throughout. */
  function Clicks(g: GestureState, evs: seq<ClickEvent>): (r: GestureState)
    ensures r.flagPause == g.flagPause
    ensures Coherent(g) ==> Coherent(r)
    decreases |evs|
  {
    if evs == [] then g else Clicks(OnClick(g, evs[0]), evs[1..])
  }

  /** The positions of the clicks that land in a pane. */
  function Positions(evs: seq<ClickEvent>): seq<Vertex> {
    if evs == [] then []
    else (if evs[0].InPane? then [(evs[0].x, evs[0].y)] else []) + Positions(evs[1..])
  }

  /** While paused, no run of clicks changes anything. */
  lemma {:induction false} PausedClicksChangeNothing(g: GestureState, evs: seq<ClickEvent>)
    requires g.flagPause
    ensures Clicks(g, evs) == g
    decreases |evs|
  {
    if evs != [] {
      PausedClicksChangeNothing(OnClick(g, evs[0]), evs[1..]);
    }
  }

  /** Clicks that all land in one pane (or outside every pane) extend the
      gesture by their positions, in order, and leave it bound to that pane. */
  lemma {:induction false} ClicksInOnePane(g: GestureState, p: Pane, evs: seq<ClickEvent>)
    requires !g.flagPause
    requires g.previousAxis.None? || g.previousAxis == Some(p)
    requires forall i :: 0 <= i < |evs| ==> evs[i].Outside? || evs[i].pane == p
    ensures Clicks(g, evs).xy == g.xy + Positions(evs)
    ensures Clicks(g, evs).previousAxis == if Positions(evs) == [] then g.previousAxis else Some(p)
    ensures !Clicks(g, evs).flagPause
    decreases |evs|
  {
    if evs != [] {
      var e := evs[0];
      var g' := OnClick(g, e);
      var here := if e.InPane? then [(e.x, e.y)] else [];
      assert g'.xy == g.xy + here && !g'.flagPause;
      assert g'.previousAxis == if e.InPane? then Some(p) else g.previousAxis;
      assert forall i :: 0 <= i < |evs| - 1 ==> evs[1..][i] == evs[i + 1];
      ClicksInOnePane(g', p, evs[1..]);
      assert Positions(evs) == here + Positions(evs[1..]);
      assert g.xy + Positions(evs) == g'.xy + Positions(evs[1..]);
    }
  }
}

=== FILE: mask_algebra.dfy ===
/**
 * The in-place steps the preprocessing script applies to the detector data
 * and its mask, both volumes of shape (nz, ny, nx) indexed `[z, y, x]`.
 * Data holds photon counts, the mask holds 1 for a masked voxel and 0
 * otherwise (any nonzero value counts as masked until the mask is
 * binarised).  Each numpy boolean-index assignment `a[cond] = v` is a
 * simultaneous update, written as a `forall` statement.
 */
module MaskAlgebra {

  predicate HasShape(a: array3<int>, nz: nat, ny: nat, nx: nat) {
    a.Length0 == nz && a.Length1 == ny && a.Length2 == nx
  }

  predicate SameShape(a: array3<int>, b: array3<int>) {
    HasShape(b, a.Length0, a.Length1, a.Length2)
  }

  /** Every mask value is 0 or 1. */
  ghost predicate IsBinary(m: array3<int>)
    reads m
  {
    forall z, y, x :: 0 <= z < m.Length0 && 0 <= y < m.Length1 && 0 <= x < m.Length2 ==>
      m[z, y, x] == 0 || m[z, y, x] == 1
  }

  /** Masked voxels hold no counts. */
  ghost predicate ZeroWhereMasked(data: array3<int>, mask: array3<int>)
    requires SameShape(data, mask)
    reads data, mask
  {
    forall z, y, x :: 0 <= z < data.Length0 && 0 <= y < data.Length1 && 0 <= x < data.Length2 ==>
      mask[z, y, x] == 1 ==> data[z, y, x] == 0
  }

  /** The sum of the first `n` frames of the column at `(y, x)`: for
      `n == nz`, `np.sum(data, axis=0)[y, x]`. */
  function ColumnSum(a: array3<int>, y: nat, x: nat, n: nat): (sum: int)
    requires y < a.Length1 && x < a.Length2 && n <= a.Length0
    reads a
    ensures (forall z :: 0 <= z < n ==> a[z, y, x] >= 0) ==>
      forall z :: 0 <= z < n ==> 0 <= a[z, y, x] <= sum
  {
    if n == 0 then 0 else ColumnSum(a, y, x, n - 1) + a[n - 1, y, x]
  }

  /** Counts are never negative, so a column sums to zero exactly when the
      pixel recorded no photon in any frame. */
  lemma {:induction false} ColumnSumZeroIff(a: array3<int>, y: nat, x: nat, n: nat)
    requires y < a.Length1 && x < a.Length2 && n <= a.Length0
    requires forall z :: 0 <= z < n ==> a[z, y, x] >= 0
    ensures ColumnSum(a, y, x, n) >= 0
    ensures ColumnSum(a, y, x, n) == 0 <==> forall z :: 0 <= z < n ==> a[z, y, x] == 0
  {
    if n > 0 {
      ColumnSumZeroIff(a, y, x, n - 1);
    }
  }

  /** `np.copy(a)`. */
  method Copy(a: array3<int>) returns (c: array3<int>)
    ensures fresh(c) && SameShape(a, c)
    ensures forall z, y, x :: 0 <= z < a.Length0 && 0 <= y < a.Length1 && 0 <= x < a.Length2 ==>
      c[z, y, x] == a[z, y, x]
  {
    c := new int[a.Length0, a.Length1, a.Length2];
    forall z, y, x | 0 <= z < a.Length0 && 0 <= y < a.Length1 && 0 <= x < a.Length2 {
      c[z, y, x] := a[z, y, x];
    }
  }

  /** `np.zeros((nz, ny, nx))`. */
  method Zeros(nz: nat, ny: nat, nx: nat) returns (c: array3<int>)
    ensures fresh(c) && HasShape(c, nz, ny, nx)
    ensures forall z, y, x :: 0 <= z < nz && 0 <= y < ny && 0 <= x < nx ==> c[z, y, x] == 0
  {
    c := new int[nz, ny, nx]((z, y, x) => 0);
  }

  /** Zero-event masking: a pixel whose column sums to zero over the whole
      rocking curve is masked in every frame; nothing else changes. */
  method MaskZeroEvents(data: array3<int>, mask: array3<int>)
    requires SameShape(data, mask)
    modifies mask
    ensures forall z, y, x :: 0 <= z < mask.Length0 && 0 <= y < mask.Length1 && 0 <= x < mask.Length2 ==>
      mask[z, y, x] == if old(ColumnSum(data, y, x, data.Length0)) == 0 then 1 else old(mask[z, y, x])
  {
    var nz, ny, nx := data.Length0, data.Length1, data.Length2;
    var tempMask := new int[ny, nx]((y, x) => 0);
    forall y, x | 0 <= y < ny && 0 <= x < nx && ColumnSum(data, y, x, nz) == 0 {
      tempMask[y, x] := 1;
    }
    forall z, y, x | 0 <= z < nz && 0 <= y < ny && 0 <= x < nx && tempMask[y, x] == 1 {
      mask[z, y, x] := 1;
    }
  }

  /** `mask[np.nonzero(mask)] = 1`: every nonzero value becomes 1, so the
      mask ends binary, and a binary mask is left as it was. */
  method Binarise(mask: array3<int>)
    modifies mask
    ensures forall z, y, x :: 0 <= z < mask.Length0 && 0 <= y < mask.Length1 && 0 <= x < mask.Length2 ==>
      mask[z, y, x] == if old(mask[z, y, x]) != 0 then 1 else 0
    ensures IsBinary(mask)
    ensures old(IsBinary(mask)) ==>
      forall z, y, x :: 0 <= z < mask.Length0 && 0 <= y < mask.Length1 && 0 <= x < mask.Length2 ==>
        mask[z, y, x] == old(mask[z, y, x])
  {
    forall z, y, x | 0 <= z < mask.Length0 && 0 <= y < mask.Length1 && 0 <= x < mask.Length2
                     && mask[z, y, x] != 0 {
      mask[z, y, x] := 1;
    }
  }

  /** `data[mask == 1] = 0`. */
  method ZeroMasked(data: array3<int>, mask: array3<int>)
    requires SameShape(data, mask)
    modifies data
    ensures forall z, y, x :: 0 <= z < data.Length0 && 0 <= y < data.Length1 && 0 <= x < data.Length2 ==>
      data[z, y, x] == if old(mask[z, y, x]) == 1 then 0 else old(data[z, y, x])
    ensures data != mask ==> ZeroWhereMasked(data, mask)
  {
    forall z, y, x | 0 <= z < data.Length0 && 0 <= y < data.Length1 && 0 <= x < data.Length2
                     && mask[z, y, x] == 1 {
      data[z, y, x] := 0;
    }
  }

  /** `mask[np.nonzero(updated_mask)] = 1`: the union of the mask with the
      voxels marked in `updated`; no voxel is unmasked. */
  method MergeMask(mask: array3<int>, updated: array3<int>)
    requires SameShape(mask, updated)
    modifies mask
    ensures forall z, y, x :: 0 <= z < mask.Length0 && 0 <= y < mask.Length1 && 0 <= x < mask.Length2 ==>
      mask[z, y, x] == if old(updated[z, y, x]) != 0 then 1 else old(mask[z, y, x])
  {
    forall z, y, x | 0 <= z < mask.Length0 && 0 <= y < mask.Length1 && 0 <= x < mask.Length2
                     && updated[z, y, x] != 0 {
      mask[z, y, x] := 1;
    }
  }

  /** Photon threshold: unless the threshold is 0, every voxel counting
      fewer photons than the threshold is masked and emptied. */
  method ApplyPhotonThreshold(data: array3<int>, mask: array3<int>, threshold: int)
    requires SameShape(data, mask) && data != mask
    modifies data, mask
    ensures forall z, y, x :: 0 <= z < data.Length0 && 0 <= y < data.Length1 && 0 <= x < data.Length2 ==>
      mask[z, y, x] == if threshold != 0 && old(data[z, y, x]) < threshold then 1 else old(mask[z, y, x])
    ensures forall z, y, x :: 0 <= z < data.Length0 && 0 <= y < data.Length1 && 0 <= x < data.Length2 ==>
      data[z, y, x] == if threshold != 0 && old(data[z, y, x]) < threshold then 0 else old(data[z, y, x])
  {
    if threshold != 0 {
      forall z, y, x | 0 <= z < data.Length0 && 0 <= y < data.Length1 && 0 <= x < data.Length2
                       && data[z, y, x] < threshold {
        mask[z, y, x] := 1;
      }
      forall z, y, x | 0 <= z < data.Length0 && 0 <= y < data.Length1 && 0 <= x < data.Length2
                       && data[z, y, x] < threshold {
        data[z, y, x] := 0;
      }
    }
  }

  /** The steps after the interactive masking, in the script's order:
      binarise the mask and empty the masked voxels, apply the photon
      threshold, empty the masked voxels once more.  Afterwards a voxel is
      masked exactly when it was masked before or fell below a nonzero
      threshold; the mask is binary and masked voxels hold no counts. */
  method FinaliseMaskAndData(data: array3<int>, mask: array3<int>, threshold: int)
    requires SameShape(data, mask) && data != mask
    modifies data, mask
    ensures forall z, y, x :: 0 <= z < data.Length0 && 0 <= y < data.Length1 && 0 <= x < data.Length2 ==>
      mask[z, y, x] ==
        if old(mask[z, y, x]) != 0 || (threshold != 0 && old(data[z, y, x]) < threshold) then 1 else 0
    ensures forall z, y, x :: 0 <= z < data.Length0 && 0 <= y < data.Length1 && 0 <= x < data.Length2 ==>
      data[z, y, x] == if mask[z, y, x] == 1 then 0 else old(data[z, y, x])
    ensures IsBinary(mask) && ZeroWhereMasked(data, mask)
  {
    Binarise(mask);
    ZeroMasked(data, mask);
    ApplyPhotonThreshold(data, mask, threshold);
    ZeroMasked(data, mask);
  }
}

=== FILE: output_names.dfy ===
/**
 * Where the preprocessing script saves each scan and how it names the
 * files: the scan's home directory, the `pynx/` or `pynxraw/` save
 * directory, the comment string that records the processing applied and
 * the array shape, and the final data and mask archives.
 */
module OutputNames {
  import opened PyText

  /** The scan's home directory.  Except at P10 it is the root folder, the
      sample name and the scan number; at P10 it is named after the spec
      file, which the caller formats from the scan number. */
  function HomeDir(beamline: string, rootFolder: string, sampleName: string,
                   p10Specfile: string, scan: int): (home: string)
    ensures |home| > |rootFolder| && home[..|rootFolder|] == rootFolder
    ensures home[|home| - 1] == '/'
  {
    if beamline != "P10" then rootFolder + sampleName + IntToStr(scan) + "/"
    else rootFolder + p10Specfile + "/"
  }

  /** The directory the outputs go to: `pynx/` for data interpolated onto
      an orthogonal grid, `pynxraw/` for data in the detector frame. */
  function SaveDir(home: string, useRawdata: bool): (dir: string)
    ensures |dir| > |home| && dir[..|home|] == home
  {
    if !useRawdata then home + "pynx/" else home + "pynxraw/"
  }

  /** The comment at the time data is centred: the user's comment, then
      `_ortho` for orthogonalised data and `_norm` for normalised data. */
  function ScanComment(userComment: string, useRawdata: bool, normalizeFlux: bool): (comment: string)
    ensures |comment| >= |userComment| && comment[..|userComment|] == userComment
  {
    userComment + (if !useRawdata then "_ortho" else "") + (if normalizeFlux then "_norm" else "")
  }

  /** `"_" + str(a) + "_" + str(b) + "_" + str(c)`. */
  function Tag(a: int, b: int, c: int): (tag: string)
    ensures |tag| >= 6 && tag[0] == '_'
  {
    "_" + IntToStr(a) + "_" + IntToStr(b) + "_" + IntToStr(c)
  }

  /** The three numbers of a shape or binning triple, printed. */
  function Printed(t: (int, int, int)): (p: seq<string>)
    ensures |p| == 3 && forall i :: 0 <= i < 3 ==> '_' !in p[i]
  {
    IntToStrOmits(t.0, '_');
    IntToStrOmits(t.1, '_');
    IntToStrOmits(t.2, '_');
    [IntToStr(t.0), IntToStr(t.1), IntToStr(t.2)]
  }

  lemma TagIsJoin(a: int, b: int, c: int)
    ensures Tag(a, b, c) == "_" + Join(Printed((a, b, c)), '_')
  {
    var p := Printed((a, b, c));
    assert p[1..][1..] == [p[2]];
    assert Join(p[1..], '_') == p[1] + "_" + p[2];
  }

  /** A tag reads back: after its leading `_`, its `_`-separated fields are
      the three numbers, printed, and parsing them gives the numbers. */
  lemma TagReadBack(a: int, b: int, c: int)
    ensures var f := Split(Tag(a, b, c)[1..], '_');
      && f == [IntToStr(a), IntToStr(b), IntToStr(c)]
      && ParseInt(f[0]) == a && ParseInt(f[1]) == b && ParseInt(f[2]) == c
  {
    TagIsJoin(a, b, c);
    SplitJoin(Printed((a, b, c)), '_');
    ParseIntToStr(a);
    ParseIntToStr(b);
    ParseIntToStr(c);
  }

  /** The comment the final archives carry: the scan comment, the shape
      after masking, the shape after binning the stacking axis when that
      axis is binned, and the binning factors. */
  function FinalComment(comment: string, shape: (int, int, int), binnedShape: (int, int, int),
                        binning: (int, int, int)): (final: string)
    ensures |final| >= |comment| + 12 && final[..|comment|] == comment
    ensures var s, b := Tag(shape.0, shape.1, shape.2), Tag(binning.0, binning.1, binning.2);
      && |final| >= |comment| + |s| + |b|
      && final[|comment|..|comment| + |s|] == s && final[|final| - |b|..] == b
  {
    var s, b := Tag(shape.0, shape.1, shape.2), Tag(binning.0, binning.1, binning.2);
    var m := if binning.0 != 1 then Tag(binnedShape.0, binnedShape.1, binnedShape.2) else "";
    Assemble(comment, s, m, b)
  }

  /** Four pieces strung together, and where the first, second and last
      lie in the result. */
  function Assemble(c: string, s: string, m: string, b: string): (w: string)
    ensures |w| == |c| + |s| + |m| + |b|
    ensures w[..|c|] == c && w[|c|..|c| + |s|] == s && w[|w| - |b|..] == b
  {
    c + s + m + b
  }

  /** Where each of four concatenated pieces lies. */
  lemma Pieces(c: string, s: string, m: string, b: string)
    ensures var w := c + s + m + b;
      && |w| == |c| + |s| + |m| + |b|
      && w[..|c|] == c && w[|c|..|c| + |s|] == s && w[|w| - |b|..] == b
      && w[|c|..] == s + m + b
  {
  }

  /** Tags strung together, without the first `_`. */
  lemma UnderscoreRun(x: string, y: string, z: string)
    ensures ("_" + x + ("_" + y) + ("_" + z))[1..] == x + "_" + y + "_" + z
    ensures ("_" + x + "" + ("_" + z))[1..] == x + "_" + z
  {
  }

  /** The archive of the prepared data, as passed to
      `np.savez_compressed`, which appends `.npz` to it. */
  function DataFile(saveDir: string, scan: int, comment: string): (path: string)
    ensures |path| > |saveDir| + 6 && path[..|saveDir|] == saveDir
    ensures |path| > |comment| + 6 && path[|path| - |comment|..] == comment
  {
    saveDir + "S" + IntToStr(scan) + "_pynx" + comment
  }

  /** The archive of the prepared mask, as passed to
      `np.savez_compressed`, which appends `.npz` to it. */
  function MaskFile(saveDir: string, scan: int, comment: string): (path: string)
    ensures |path| > |saveDir| + 10 && path[..|saveDir|] == saveDir
    ensures |path| > |comment| + 10 && path[|path| - |comment|..] == comment
  {
    saveDir + "S" + IntToStr(scan) + "_maskpynx" + comment
  }

  /** The home directory reads back: outside P10 the component after the
      root folder and the sample name is the printed scan number. */
  lemma HomeDirReadBack(beamline: string, rootFolder: string, sampleName: string,
                        p10Specfile: string, scan: int)
    requires beamline != "P10"
    ensures var home := HomeDir(beamline, rootFolder, sampleName, p10Specfile, scan);
      var pre := rootFolder + sampleName;
      && |home| > |pre| && home[..|pre|] == pre
      && Split(home[|pre|..], '/')[0] == IntToStr(scan)
  {
    var pre := rootFolder + sampleName;
    assert HomeDir(beamline, rootFolder, sampleName, p10Specfile, scan) == pre + IntToStr(scan) + "/" + "";
    ScanComponent(pre, scan, "");
  }

  /** At P10 the component after the root folder is the spec file's name. */
  lemma P10HomeDirReadBack(rootFolder: string, sampleName: string, p10Specfile: string, scan: int)
    requires '/' !in p10Specfile
    ensures var home := HomeDir("P10", rootFolder, sampleName, p10Specfile, scan);
      Split(home[|rootFolder|..], '/')[0] == p10Specfile
  {
    var home := HomeDir("P10", rootFolder, sampleName, p10Specfile, scan);
    assert home[|rootFolder|..] == p10Specfile + ['/'] + [];
    SplitAtFirstSeparator(p10Specfile, '/', []);
  }

  /** The archive names read back: after the save directory comes `S`,
      then the printed scan number up to the first `_`. */
  lemma ArchiveScanReadBack(saveDir: string, scan: int, comment: string)
    ensures var data := DataFile(saveDir, scan, comment);
      data[|saveDir|] == 'S' && Split(data[|saveDir| + 1..], '_')[0] == IntToStr(scan)
    ensures var mask := MaskFile(saveDir, scan, comment);
      mask[|saveDir|] == 'S' && Split(mask[|saveDir| + 1..], '_')[0] == IntToStr(scan)
  {
    IntToStrOmits(scan, '_');
    LeadingScanField(saveDir, IntToStr(scan), "_pynx", comment);
    LeadingScanField(saveDir, IntToStr(scan), "_maskpynx", comment);
  }

  /** `dir + "S" + n + tag + comment`, with `tag` starting with `_` and no
      `_` in `n`, has `n` as its first `_`-field after the `S`. */
  lemma LeadingScanField(dir: string, n: string, tag: string, comment: string)
    requires '_' !in n && tag != [] && tag[0] == '_'
    ensures var p := dir + "S" + n + tag + comment;
      |p| > |dir| + 1 && p[|dir|] == 'S' && Split(p[|dir| + 1..], '_')[0] == n
  {
    var p := dir + "S" + n + tag + comment;
    assert p[|dir| + 1..] == n + ['_'] + (tag[1..] + comment);
    SplitAtFirstSeparator(n, '_', tag[1..] + comment);
  }

  /** The data archive carries the shape and binning numbers of the final
      comment: after the scan comment, its name splits on `_` into the
      fields `FinalFields` describes, the data shape, the binned shape when
      binned, and the binning factors last. */
  lemma DataFileCarriesShape(saveDir: string, scan: int, comment: string, shape: (int, int, int),
                             binnedShape: (int, int, int), binning: (int, int, int))
    ensures var path := DataFile(saveDir, scan, FinalComment(comment, shape, binnedShape, binning));
      EndsWithFinalFields(path, comment, shape, binnedShape, binning)
  {
    var final := FinalComment(comment, shape, binnedShape, binning);
    EndsWithFinalComment(DataFile(saveDir, scan, final), comment, shape, binnedShape, binning);
  }

  /** After the scan comment, the end of `path` splits on `_` into the
      fields of the final comment. */
  predicate EndsWithFinalFields(path: string, comment: string, shape: (int, int, int),
                                binnedShape: (int, int, int), binning: (int, int, int))
  {
    var final := FinalComment(comment, shape, binnedShape, binning);
    && |final| > |comment| && |path| >= |final|
    && Split(path[|path| - |final| + |comment| + 1..], '_') == FinalFields(shape, binnedShape, binning)
  }

  /** Any name that ends with the final comment reads back its fields. */
  lemma EndsWithFinalComment(path: string, comment: string, shape: (int, int, int),
                             binnedShape: (int, int, int), binning: (int, int, int))
    requires var final := FinalComment(comment, shape, binnedShape, binning);
      |final| <= |path| && path[|path| - |final|..] == final
    ensures EndsWithFinalFields(path, comment, shape, binnedShape, binning)
  {
    var final := FinalComment(comment, shape, binnedShape, binning);
    FinalCommentIsJoin(comment, shape, binnedShape, binning);
    SplitOfSuffixTail(path, final, |comment| + 1, FinalFields(shape, binnedShape, binning));
  }

  /** When a string ends with `final` and `final` continues, from `k` on,
      with `_`-free parts joined by `_`, splitting the string from that
      point gives the parts back. */
  lemma SplitOfSuffixTail(path: string, final: string, k: nat, parts: seq<string>)
    requires |final| <= |path| && path[|path| - |final|..] == final && k <= |final|
    requires |parts| >= 1 && forall i :: 0 <= i < |parts| ==> '_' !in parts[i]
    requires final[k..] == Join(parts, '_')
    ensures Split(path[|path| - |final| + k..], '_') == parts
  {
    assert path[|path| - |final| + k..] == final[k..] by {
      assert forall i :: 0 <= i < |final| - k ==> path[|path| - |final| + k..][i] == final[k..][i];
    }
    SplitJoin(parts, '_');
  }

  /** The save directory ends in `pynx/` exactly when the data is
      orthogonalised. */
  lemma SaveDirSuffixIff(home: string, useRawdata: bool)
    ensures var dir := SaveDir(home, useRawdata);
      dir[|dir| - 5..] == "pynx/" <==> !useRawdata
  {
    var dir := SaveDir(home, useRawdata);
    if useRawdata {
      assert dir[|dir| - 5..] == "xraw/";
    }
  }

  /** The comment carries `_ortho` right after the user's comment exactly
      when the data is orthogonalised, and `_norm` at its end exactly when
      it is normalised. */
  lemma ScanCommentTags(userComment: string, useRawdata: bool, normalizeFlux: bool)
    ensures var c := ScanComment(userComment, useRawdata, normalizeFlux);
      (|c| >= |userComment| + 6 && c[|userComment|..|userComment| + 6] == "_ortho") <==> !useRawdata
    ensures var c := ScanComment(userComment, useRawdata, normalizeFlux);
      (|c| >= |userComment| + 5 && c[|c| - 5..] == "_norm") <==> normalizeFlux
  {
    var c := ScanComment(userComment, useRawdata, normalizeFlux);
    var u := |userComment|;
    if useRawdata && normalizeFlux {
      assert c == userComment + "_norm";
      assert c[u + 1] == 'n';
    } else if !useRawdata && !normalizeFlux {
      assert c == userComment + "_ortho";
      assert c[|c| - 4] == 'r';
    }
  }

  /** The numbers after the comment read back: its `_`-separated fields are
      the shape, then the binned shape when the stacking axis is binned,
      then the binning factors, each printed. */
  lemma FinalCommentReadBack(comment: string, shape: (int, int, int), binnedShape: (int, int, int),
                             binning: (int, int, int))
    ensures |FinalComment(comment, shape, binnedShape, binning)| > |comment|
    ensures var f := Split(FinalComment(comment, shape, binnedShape, binning)[|comment| + 1..], '_');
      && |f| == (if binning.0 != 1 then 9 else 6)
      && f[..3] == Printed(shape)
      && (binning.0 != 1 ==> f[3..6] == Printed(binnedShape))
      && f[|f| - 3..] == Printed(binning)
  {
    var parts := FinalFields(shape, binnedShape, binning);
    FinalCommentIsJoin(comment, shape, binnedShape, binning);
    assert Split(FinalComment(comment, shape, binnedShape, binning)[|comment| + 1..], '_') == parts by {
      SplitJoin(parts, '_');
    }
  }

  /** The printed numbers the final comment carries after the comment. */
  function FinalFields(shape: (int, int, int), binnedShape: (int, int, int), binning: (int, int, int))
    : (f: seq<string>)
    ensures |f| == (if binning.0 != 1 then 9 else 6)
    ensures f[..3] == Printed(shape) && f[|f| - 3..] == Printed(binning)
    ensures binning.0 != 1 ==> f[3..6] == Printed(binnedShape)
    ensures forall i :: 0 <= i < |f| ==> '_' !in f[i]
  {
    Printed(shape) + (if binning.0 != 1 then Printed(binnedShape) else []) + Printed(binning)
  }

  lemma FinalCommentIsJoin(comment: string, shape: (int, int, int), binnedShape: (int, int, int),
                           binning: (int, int, int))
    ensures |FinalComment(comment, shape, binnedShape, binning)| > |comment|
    ensures FinalComment(comment, shape, binnedShape, binning)[|comment| + 1..]
         == Join(FinalFields(shape, binnedShape, binning), '_')
  {
    var final := FinalComment(comment, shape, binnedShape, binning);
    var s, b := Tag(shape.0, shape.1, shape.2), Tag(binning.0, binning.1, binning.2);
    var m := if binning.0 != 1 then Tag(binnedShape.0, binnedShape.1, binnedShape.2) else "";
    assert final[|comment| + 1..] == (s + m + b)[1..] by {
      Pieces(comment, s, m, b);
    }
    if binning.0 != 1 {
      BinnedTail(shape, binnedShape, binning);
    } else {
      UnbinnedTail(shape, binnedShape, binning);
    }
  }

  lemma BinnedTail(shape: (int, int, int), binnedShape: (int, int, int), binning: (int, int, int))
    requires binning.0 != 1
    ensures (Tag(shape.0, shape.1, shape.2) + Tag(binnedShape.0, binnedShape.1, binnedShape.2)
             + Tag(binning.0, binning.1, binning.2))[1..] == Join(FinalFields(shape, binnedShape, binning), '_')
  {
    TagIsJoin(shape.0, shape.1, shape.2);
    TagIsJoin(binnedShape.0, binnedShape.1, binnedShape.2);
    TagIsJoin(binning.0, binning.1, binning.2);
    TagsJoin3(Printed(shape), Printed(binnedShape), Printed(binning));
  }

  lemma UnbinnedTail(shape: (int, int, int), binnedShape: (int, int, int), binning: (int, int, int))
    requires binning.0 == 1
    ensures (Tag(shape.0, shape.1, shape.2) + "" + Tag(binning.0, binning.1, binning.2))[1..]
         == Join(FinalFields(shape, binnedShape, binning), '_')
  {
    TagIsJoin(shape.0, shape.1, shape.2);
    TagIsJoin(binning.0, binning.1, binning.2);
    TagsJoin2(Printed(shape), Printed(binning));
    assert FinalFields(shape, binnedShape, binning) == Printed(shape) + Printed(binning);
  }

  lemma TagsJoin3(p: seq<string>, q: seq<string>, r: seq<string>)
    requires |p| >= 1 && |q| >= 1 && |r| >= 1
    ensures ("_" + Join(p, '_') + ("_" + Join(q, '_')) + ("_" + Join(r, '_')))[1..] == Join(p + q + r, '_')
  {
    JoinAppend(p, q, '_');
    JoinAppend(p + q, r, '_');
    UnderscoreRun(Join(p, '_'), Join(q, '_'), Join(r, '_'));
  }

  lemma TagsJoin2(p: seq<string>, r: seq<string>)
    requires |p| >= 1 && |r| >= 1
    ensures ("_" + Join(p, '_') + "" + ("_" + Join(r, '_')))[1..] == Join(p + r, '_')
  {
    JoinAppend(p, r, '_');
    UnderscoreRun(Join(p, '_'), "", Join(r, '_'));
  }

  /** The data archive and the mask archive of a scan never share a path. */
  lemma DataFileIsNotMaskFile(saveDir: string, scan: int, c1: string, c2: string)
    ensures DataFile(saveDir, scan, c1) != MaskFile(saveDir, scan, c2)
  {
    var k := |saveDir| + 1 + |IntToStr(scan)| + 1;
    assert DataFile(saveDir, scan, c1)[k] == 'p';
    assert MaskFile(saveDir, scan, c2)[k] == 'm';
  }

  /** Two paths below the home directories of two different scans differ:
      the first path component after the common prefix is the printed scan
      number. */
  lemma DistinctHomesDistinctPaths(prefix: string, s1: int, s2: int, t1: string, t2: string)
    requires s1 != s2
    ensures prefix + IntToStr(s1) + "/" + t1 != prefix + IntToStr(s2) + "/" + t2
  {
    ParseIntToStr(s1);
    ParseIntToStr(s2);
    ScanComponent(prefix, s1, t1);
    ScanComponent(prefix, s2, t2);
  }

  lemma ScanComponent(prefix: string, s: int, t: string)
    ensures var path := prefix + IntToStr(s) + "/" + t;
      |path| >= |prefix| && Split(path[|prefix|..], '/')[0] == IntToStr(s)
  {
    var n := IntToStr(s);
    var path := prefix + n + "/" + t;
    assert path[|prefix|..] == n + ['/'] + t;
    IntToStrOmits(s, '/');
    SplitAtFirstSeparator(n, '/', t);
  }

  /** Outside P10, two different scans never write to the same archive:
      the scan number is part of every path. */
  lemma DistinctScansDistinctFiles(beamline: string, rootFolder: string, sampleName: string,
                                   useRawdata: bool, s1: int, s2: int, p1: string, p2: string,
                                   c1: string, c2: string)
    requires beamline != "P10" && s1 != s2
    ensures DataFile(SaveDir(HomeDir(beamline, rootFolder, sampleName, p1, s1), useRawdata), s1, c1)
         != DataFile(SaveDir(HomeDir(beamline, rootFolder, sampleName, p2, s2), useRawdata), s2, c2)
    ensures MaskFile(SaveDir(HomeDir(beamline, rootFolder, sampleName, p1, s1), useRawdata), s1, c1)
         != MaskFile(SaveDir(HomeDir(beamline, rootFolder, sampleName, p2, s2), useRawdata), s2, c2)
  {
    var prefix := rootFolder + sampleName;
    var sub := if useRawdata then "pynxraw/" else "pynx/";
    var n1, n2 := IntToStr(s1), IntToStr(s2);
    BelowHome(prefix + n1 + "/", sub, n1, "_pynx", c1);
    BelowHome(prefix + n2 + "/", sub, n2, "_pynx", c2);
    BelowHome(prefix + n1 + "/", sub, n1, "_maskpynx", c1);
    BelowHome(prefix + n2 + "/", sub, n2, "_maskpynx", c2);
    DistinctHomesDistinctPaths(prefix, s1, s2, sub + "S" + n1 + "_pynx" + c1, sub + "S" + n2 + "_pynx" + c2);
    DistinctHomesDistinctPaths(prefix, s1, s2, sub + "S" + n1 + "_maskpynx" + c1, sub + "S" + n2 + "_maskpynx" + c2);
  }

  /** Regrouping an archive path below its home directory; kept apart so
      that the solver proves it without the naming facts in scope. */
  lemma BelowHome(home: string, sub: string, n: string, tag: string, c: string)
    ensures home + sub + "S" + n + tag + c == home + (sub + "S" + n + tag + c)
  {
  }
}

=== FILE: panes.dfy ===
/**
 * The pure part of the key handler of the interactive masking figure: which
 * projection axis a pane stands for, the grid of candidate pixels handed to
 * the polygon-mask update, and which update a key press is routed to.
 *
 * The figure has four panes: `Ax0` shows the projection along z (x across,
 * y down), `Ax1` along y (x across, z down), `Ax2` along x (y across,
 * z down), and `Ax3` is hidden.
 */
module Panes {
  import opened Wrappers

  datatype Pane = Ax0 | Ax1 | Ax2 | Ax3

  /** A pixel position `(x, y)` in a pane, already rounded to integers. */
  type Vertex = (int, int)

  /** The axis a pane projects along (`dim`, `click_dim`); no axis for the
      hidden pane or for no pane at all (`-1`, `None`). */
  function PaneDim(pane: Option<Pane>): (dim: Option<nat>)
    ensures dim.Some? <==> pane == Some(Ax0) || pane == Some(Ax1) || pane == Some(Ax2)
    ensures dim.Some? ==> dim.value <= 2
  {
    match pane
    case Some(Ax0) => Some(0)
    case Some(Ax1) => Some(1)
    case Some(Ax2) => Some(2)
    case _ => None
  }

  /** Different visible panes stand for different axes. */
  lemma PaneDimInjective(p: Option<Pane>, q: Option<Pane>)
    requires PaneDim(p).Some? && PaneDim(p) == PaneDim(q)
    ensures p == q
  {
  }

  /** Width and height of the projection along `dim` of a (nz, ny, nx)
      volume, as the pane displays it. */
  function Extents(dim: nat, nz: nat, ny: nat, nx: nat): (wh: (nat, nat))
    requires dim <= 2
  {
    if dim == 0 then (nx, ny) else if dim == 1 then (nx, nz) else (ny, nz)
  }

  /** `np.stack((x.flatten(), y.flatten())).T` for
      `x, y = np.meshgrid(np.arange(w), np.arange(h))`: every pixel of a
      w-by-h image, row by row. */
  function Grid(w: nat, h: nat): (g: seq<Vertex>)
    ensures |g| == w * h
    ensures forall k :: 0 <= k < |g| ==> 0 <= g[k].0 < w && 0 <= g[k].1 < h
  {
    var g := seq(w * h, k requires 0 <= k < w * h => (k % w, k / w));
    CellsInBounds(w, h, g);
    g
  }

  /** Every row-major cell index of a w-by-h image names a pixel inside it. */
  lemma CellsInBounds(w: nat, h: nat, g: seq<Vertex>)
    requires |g| == w * h && forall k :: 0 <= k < |g| ==> g[k] == (k % w, k / w)
    ensures forall k :: 0 <= k < |g| ==> 0 <= g[k].0 < w && 0 <= g[k].1 < h
  {
    forall k | 0 <= k < |g|
      ensures 0 <= g[k].0 < w && 0 <= g[k].1 < h
    {
      DivBelow(k, w, h);
    }
  }

  lemma DivBelow(k: nat, w: nat, h: nat)
    requires k < w * h
    ensures w > 0 && k / w < h
  {
    assert w > 0;
    var q := k / w;
    assert q * w <= k;
    MulMonotone(h, q, w);
  }

  lemma MulMonotone(a: nat, b: nat, c: nat)
    ensures a <= b ==> a * c <= b * c
  {
    if a <= b {
      assert b * c == a * c + (b - a) * c;
    }
  }

  lemma MulAwayFromZero(d: int, w: int)
    requires w >= 0
    ensures d >= 1 ==> d * w >= w
    ensures d <= -1 ==> d * w <= -w
  {
    if d >= 1 {
      assert d * w == w + (d - 1) * w;
    } else if d <= -1 {
      assert d * w == -w + (d + 1) * w;
    }
  }

  /** Every pixel of the image is a candidate, at its row-major index. */
  lemma GridHasEveryPixel(w: nat, h: nat, x: nat, y: nat)
    requires x < w && y < h
    ensures y * w + x < w * h && Grid(w, h)[y * w + x] == (x, y)
  {
    var k := y * w + x;
    assert (y + 1) * w == y * w + w;
    MulMonotone(y + 1, h, w);
    DivModUnique(k, w, x, y);
  }

  lemma DivModUnique(k: nat, w: nat, x: nat, y: nat)
    requires x < w && k == y * w + x
    ensures k / w == y && k % w == x
  {
    var q, r := k / w, k % w;
    assert k == q * w + r && 0 <= r < w;
    var d := q - y;
    assert d * w == q * w - y * w;
    assert d * w == x - r;
    MulAwayFromZero(d, w);
  }

  /** The candidates the polygon update receives (`click_dim`, `points`)
      for the pane the current gesture is bound to. */
  function CandidateGrid(bound: Option<Pane>, nz: nat, ny: nat, nx: nat)
    : (r: (Option<nat>, Option<seq<Vertex>>))
    ensures r.0 == PaneDim(bound)
    ensures bound == Some(Ax0) ==>
      && r.1 == Some(Grid(nx, ny)) && |r.1.value| == nx * ny
      && forall k :: 0 <= k < |r.1.value| ==> 0 <= r.1.value[k].0 < nx && 0 <= r.1.value[k].1 < ny
    ensures bound == Some(Ax1) ==>
      && r.1 == Some(Grid(nx, nz)) && |r.1.value| == nx * nz
      && forall k :: 0 <= k < |r.1.value| ==> 0 <= r.1.value[k].0 < nx && 0 <= r.1.value[k].1 < nz
    ensures bound == Some(Ax2) ==>
      && r.1 == Some(Grid(ny, nz)) && |r.1.value| == ny * nz
      && forall k :: 0 <= k < |r.1.value| ==> 0 <= r.1.value[k].0 < ny && 0 <= r.1.value[k].1 < nz
    ensures bound == None || bound == Some(Ax3) ==> r == (None, None)
  {
    match PaneDim(bound)
    case None => (None, None)
    case Some(d) =>
      var (w, h) := Extents(d, nz, ny, nx);
      (Some(d), Some(Grid(w, h)))
  }

  /** A key press, with the pane under the pointer and the pointer position
      (absent when the event carries no data coordinates). */
  datatype KeyEvent = KeyEvent(key: string, pane: Option<Pane>, pointer: Option<Vertex>)

  /** The foreign update a key press is handed to, with its arguments. */
  datatype ForeignCall =
    | NoCall
    | AliensCall(key: string, pix: int, piy: int, dim: nat)
    | MaskCall(key: string, pix: int, piy: int, dim: nat, clickDim: Option<nat>, points: Option<seq<Vertex>>)

  /** Routing of `press_key`: panes other than the three visible projections
      are ignored; a missing pointer raises while the arguments are built and
      the exception is swallowed, so nothing is called. */
  function Dispatch(ev: KeyEvent, flagAliens: bool, flagMask: bool, bound: Option<Pane>,
                    nz: nat, ny: nat, nx: nat): (call: ForeignCall)
    ensures call.NoCall? <==>
      PaneDim(ev.pane).None? || ev.pointer.None? || (!flagAliens && !flagMask)
    ensures call.AliensCall? <==> !call.NoCall? && flagAliens
    ensures !call.NoCall? ==> (call.pix, call.piy) == ev.pointer.value
    ensures !call.NoCall? ==> Some(call.dim) == PaneDim(ev.pane)
    ensures call.MaskCall? ==> (call.clickDim, call.points) == CandidateGrid(bound, nz, ny, nx)
  {
    match PaneDim(ev.pane)
    case None => NoCall
    case Some(dim) =>
      if !flagAliens && !flagMask then NoCall
      else if ev.pointer.None? then NoCall
      else
        var (pix, piy) := ev.pointer.value;
        if flagAliens then AliensCall(ev.key, pix, piy, dim)
        else
          var (clickDim, points) := CandidateGrid(bound, nz, ny, nx);
          MaskCall(ev.key, pix, piy, dim, clickDim, points)
  }
}

=== FILE: pytext.dfy ===
/**
 * The few Python string built-ins the modelled scripts rely on, over `string`
 * (a sequence of Unicode scalar values): `str.split` with an explicit
 * separator, `str.strip()` with no argument, `str.replace` of one character,
 * `str(int)` and `posixpath.join` of two components.
 */
module PyText {

  /** `str.isspace()` for a single character: the characters Python's
      argument-less `strip()` removes. */
  predicate IsSpace(c: char) {
    || c == ' ' || c == '\t' || c == '\n' || c == '\r'
    || c == '\U{0B}' || c == '\U{0C}'
    || c == '\U{1C}' || c == '\U{1D}' || c == '\U{1E}' || c == '\U{1F}'
    || c == '\U{85}' || c == '\U{A0}' || c == '\U{1680}'
    || ('\U{2000}' <= c <= '\U{200A}')
    || c == '\U{2028}' || c == '\U{2029}' || c == '\U{202F}'
    || c == '\U{205F}' || c == '\U{3000}'
  }

  // ---------------------------------------------------------------------------
  // str.split(sep) and its inverse, sep.join(parts)
  // ---------------------------------------------------------------------------

  /** `sep.join(parts)`, for a non-empty list of parts. */
  function Join(parts: seq<string>, sep: char): (s: string)
    requires |parts| >= 1
    ensures |s| >= |parts[0]| && s[..|parts[0]|] == parts[0]
    ensures |parts| > 1 ==> |s| > |parts[0]| && s[|parts[0]|] == sep
  {
    if |parts| == 1 then parts[0] else parts[0] + [sep] + Join(parts[1..], sep)
  }

  /** `s.split(sep)`: every occurrence of `sep` ends a field, so the result
      has one more field than `s` has separators, empty fields included. */
  function Split(s: string, sep: char): (parts: seq<string>)
    ensures |parts| >= 1
    ensures forall i :: 0 <= i < |parts| ==> sep !in parts[i]
    ensures Join(parts, sep) == s
  {
    if s == [] then [""]
    else
      var rest := Split(s[1..], sep);
      if s[0] == sep then
        assert ([""] + rest)[1..] == rest;
        [""] + rest
      else
        var parts := [[s[0]] + rest[0]] + rest[1..];
        assert parts[1..] == rest[1..];
        assert s == [s[0]] + s[1..];
        parts
  }

  /** A string without the separator is a single field. */
  lemma {:induction false} SplitWithoutSeparator(a: string, sep: char)
    requires sep !in a
    ensures Split(a, sep) == [a]
  {
    if a != [] {
      SplitWithoutSeparator(a[1..], sep);
      assert [a[0]] + a[1..] == a;
    }
  }

  /** The first separator ends the first field; the rest is split on its own. */
  lemma {:induction false} SplitAtFirstSeparator(a: string, sep: char, b: string)
    requires sep !in a
    ensures Split(a + [sep] + b, sep) == [a] + Split(b, sep)
  {
    var s := a + [sep] + b;
    if a == [] {
      assert s[1..] == b;
    } else {
      assert s[1..] == a[1..] + [sep] + b;
      SplitAtFirstSeparator(a[1..], sep, b);
      assert [a[0]] + a[1..] == a;
    }
  }

  /** Splitting undoes joining separator-free parts: with the contract of
      `Split`, the two are inverse bijections. */
  lemma {:induction false} SplitJoin(parts: seq<string>, sep: char)
    requires |parts| >= 1
    requires forall i :: 0 <= i < |parts| ==> sep !in parts[i]
    ensures Split(Join(parts, sep), sep) == parts
  {
    if |parts| == 1 {
      SplitWithoutSeparator(parts[0], sep);
    } else {
      SplitJoin(parts[1..], sep);
      SplitAtFirstSeparator(parts[0], sep, Join(parts[1..], sep));
      assert [parts[0]] + parts[1..] == parts;
    }
  }

  /** Joining two runs of parts is joining each and putting one separator
      between them. */
  lemma {:induction false} JoinAppend(p: seq<string>, q: seq<string>, sep: char)
    requires |p| >= 1 && |q| >= 1
    ensures Join(p + q, sep) == Join(p, sep) + [sep] + Join(q, sep)
  {
    if |p| > 1 {
      assert (p + q)[1..] == p[1..] + q;
      JoinAppend(p[1..], q, sep);
    } else {
      assert (p + q)[1..] == q;
    }
  }

  /** Fields hold only characters of the split string. */
  lemma {:induction false} SplitFieldsFromString(s: string, sep: char, c: char, i: nat)
    requires c !in s
    requires i < |Split(s, sep)|
    ensures c !in Split(s, sep)[i]
  {
    if s != [] {
      var rest := Split(s[1..], sep);
      assert c !in s[1..];
      if s[0] == sep {
        if i > 0 { SplitFieldsFromString(s[1..], sep, c, i - 1); }
      } else if i == 0 {
        SplitFieldsFromString(s[1..], sep, c, 0);
        assert c != s[0];
      } else {
        SplitFieldsFromString(s[1..], sep, c, i);
      }
    }
  }

  // ---------------------------------------------------------------------------
  // str.strip()
  // ---------------------------------------------------------------------------

  /** `s.lstrip()`: drops leading whitespace only. */
  function TrimLeft(s: string): (r: string)
    ensures |r| <= |s| && r == s[|s| - |r|..]
    ensures forall k :: 0 <= k < |s| - |r| ==> IsSpace(s[k])
    ensures r != [] ==> !IsSpace(r[0])
  {
    if s != [] && IsSpace(s[0]) then
      var r := TrimLeft(s[1..]);
      assert s[1..][|s| - 1 - |r|..] == s[|s| - |r|..];
      assert forall k :: 1 <= k < |s| - |r| ==> s[k] == s[1..][k - 1];
      r
    else s
  }

  /** `s.rstrip()`: drops trailing whitespace only. */
  function TrimRight(s: string): (r: string)
    ensures |r| <= |s| && r == s[..|r|]
    ensures forall k :: |r| <= k < |s| ==> IsSpace(s[k])
    ensures r != [] ==> !IsSpace(r[|r| - 1])
  {
    if s != [] && IsSpace(s[|s| - 1]) then TrimRight(s[..|s| - 1]) else s
  }

  /** `s.strip()`: a slice of `s` that neither starts nor ends with
      whitespace, and is empty only when `s` is all whitespace. */
  function Strip(s: string): (r: string)
    ensures |r| <= |s|
    ensures r != [] ==> !IsSpace(r[0]) && !IsSpace(r[|r| - 1])
    ensures r == [] <==> forall k :: 0 <= k < |s| ==> IsSpace(s[k])
  {
    var l := TrimLeft(s);
    var r := TrimRight(l);
    assert r != [] ==> r[0] == l[0];
    r
  }

  /** Stripping removes whitespace only: a non-space character occurs in
      the stripped string exactly when it occurs in the original. */
  lemma StripKeepsNonSpace(s: string, c: char)
    requires !IsSpace(c)
    ensures c in Strip(s) <==> c in s
  {
    TrimLeftKeepsNonSpace(s, c);
    TrimRightKeepsNonSpace(TrimLeft(s), c);
  }

  lemma {:induction false} TrimLeftKeepsNonSpace(s: string, c: char)
    requires !IsSpace(c)
    ensures c in TrimLeft(s) <==> c in s
  {
    if s != [] && IsSpace(s[0]) {
      assert s == [s[0]] + s[1..];
      TrimLeftKeepsNonSpace(s[1..], c);
    }
  }

  lemma {:induction false} TrimRightKeepsNonSpace(s: string, c: char)
    requires !IsSpace(c)
    ensures c in TrimRight(s) <==> c in s
  {
    if s != [] && IsSpace(s[|s| - 1]) {
      assert s == s[..|s| - 1] + [s[|s| - 1]];
      TrimRightKeepsNonSpace(s[..|s| - 1], c);
    }
  }

  /** Leading whitespace in front of a non-space character is removed
      entirely, and nothing more. */
  lemma {:induction false} TrimLeftAfterSpaces(ws: string, t: string)
    requires forall k :: 0 <= k < |ws| ==> IsSpace(ws[k])
    requires t != [] && !IsSpace(t[0])
    ensures TrimLeft(ws + t) == t
  {
    if ws != [] {
      assert (ws + t)[1..] == ws[1..] + t;
      TrimLeftAfterSpaces(ws[1..], t);
    }
  }

  /** Leading whitespace is removed up to the first non-space character,
      wherever it lies. */
  lemma {:induction false} TrimLeftBeforeNonSpace(p: string, t: string)
    requires t != [] && !IsSpace(t[0])
    ensures TrimLeft(p + t) == TrimLeft(p) + t
  {
    if p != [] {
      assert (p + t)[0] == p[0];
      if IsSpace(p[0]) {
        assert (p + t)[1..] == p[1..] + t;
        TrimLeftBeforeNonSpace(p[1..], t);
      }
    }
  }

  /** Trailing whitespace is removed back to the last non-space character,
      wherever it lies. */
  lemma {:induction false} TrimRightAfterNonSpace(t: string, p: string)
    requires t != [] && !IsSpace(t[|t| - 1])
    ensures TrimRight(t + p) == t + TrimRight(p)
  {
    if p != [] {
      assert (t + p)[|t + p| - 1] == p[|p| - 1];
      if IsSpace(p[|p| - 1]) {
        assert (t + p)[..|t + p| - 1] == t + p[..|p| - 1];
        TrimRightAfterNonSpace(t, p[..|p| - 1]);
      }
    }
  }

  /** Stripping a text that starts and ends with non-space characters
      strips only what lies around it. */
  lemma StripAround(p: string, t: string, q: string)
    requires t != [] && !IsSpace(t[0]) && !IsSpace(t[|t| - 1])
    ensures Strip(p + t + q) == TrimLeft(p) + t + TrimRight(q)
  {
    assert p + t + q == p + (t + q);
    TrimLeftBeforeNonSpace(p, t + q);
    assert TrimLeft(p) + (t + q) == (TrimLeft(p) + t) + q;
    TrimRightAfterNonSpace(TrimLeft(p) + t, q);
  }

  /** Trailing whitespace removal never reaches past a non-space character. */
  lemma {:induction false} TrimRightKeepsPrefix(p: string, t: string)
    requires p != [] && !IsSpace(p[|p| - 1])
    ensures |TrimRight(p + t)| >= |p| && TrimRight(p + t)[..|p|] == p
  {
    if t != [] {
      assert (p + t)[..|p + t| - 1] == p + t[..|t| - 1];
      TrimRightKeepsPrefix(p, t[..|t| - 1]);
    }
  }

  // ---------------------------------------------------------------------------
  // str.replace(old, new) for one character
  // ---------------------------------------------------------------------------

  /** `s.replace(from, to)` for one-character arguments. */
  function ReplaceChar(s: string, from: char, to: char): (r: string)
    ensures |r| == |s|
    ensures forall i :: 0 <= i < |s| ==> r[i] == (if s[i] == from then to else s[i])
  {
    if s == [] then []
    else [if s[0] == from then to else s[0]] + ReplaceChar(s[1..], from, to)
  }

  // ---------------------------------------------------------------------------
  // str(int) and its inverse on digit strings
  // ---------------------------------------------------------------------------

  predicate IsDigit(c: char) {
    '0' <= c <= '9'
  }

  function DigitChar(d: nat): (c: char)
    requires d < 10
    ensures IsDigit(c) && c as int - '0' as int == d
  {
    ('0' as int + d) as char
  }

  /** Decimal digits of `n`, most significant first, no leading zero. */
  function NatToStr(n: nat): (s: string)
    ensures |s| >= 1
    ensures forall i :: 0 <= i < |s| ==> IsDigit(s[i])
    ensures |s| > 1 ==> s[0] != '0'
    ensures s[0] == '0' <==> n == 0
  {
    if n < 10 then [DigitChar(n)] else NatToStr(n / 10) + [DigitChar(n % 10)]
  }

  predicate AllDigits(s: string) {
    forall k :: 0 <= k < |s| ==> IsDigit(s[k])
  }

  /** What `str(int)` prints: digits, after a minus sign when negative. */
  predicate IsIntLiteral(s: string) {
    |s| >= 1 && (if s[0] == '-' then AllDigits(s[1..]) else AllDigits(s))
  }

  /** Python's canonical decimal form of a natural number: at least one
      digit, and no leading zero unless the number is 0 itself. */
  predicate IsCanonicalNat(s: string) {
    |s| >= 1 && AllDigits(s) && (|s| > 1 ==> s[0] != '0')
  }

  /** Python's canonical decimal form of an integer: a canonical natural
      number, after a minus sign only when the number is not 0 (no `-0`). */
  predicate IsCanonicalInt(s: string) {
    |s| >= 1
    && if s[0] == '-' then |s| > 1 && s[1] != '0' && IsCanonicalNat(s[1..]) else IsCanonicalNat(s)
  }

  /** `str(i)` for a Python integer. */
  function IntToStr(i: int): (s: string)
    ensures IsIntLiteral(s)
  {
    if i < 0 then
      var s := "-" + NatToStr(-i);
      assert s[1..] == NatToStr(-i);
      s
    else NatToStr(i)
  }

  /** The value of a string of decimal digits. */
  function ParseNat(s: string): nat
    requires AllDigits(s)
  {
    if s == [] then 0
    else
      assert IsDigit(s[|s| - 1]);
      ParseNat(s[..|s| - 1]) * 10 + (s[|s| - 1] as int - '0' as int)
  }

  /** `int(s)` for a printed integer. */
  function ParseInt(s: string): int
    requires IsIntLiteral(s)
  {
    if s[0] == '-' then -(ParseNat(s[1..]) as int) else ParseNat(s)
  }

  /** Reading the digits back gives the number. */
  lemma {:induction false} ParseNatToStr(n: nat)
    ensures ParseNat(NatToStr(n)) == n
  {
    if n >= 10 {
      var s := NatToStr(n);
      assert s[..|s| - 1] == NatToStr(n / 10);
      ParseNatToStr(n / 10);
    }
  }

  /** `int(str(i)) == i`. */
  lemma ParseIntToStr(i: int)
    ensures ParseInt(IntToStr(i)) == i
  {
    if i < 0 {
      assert IntToStr(i)[1..] == NatToStr(-i);
      ParseNatToStr(-i);
    } else {
      assert IsDigit(NatToStr(i)[0]);
      ParseNatToStr(i);
    }
  }

  /** `str(i)` is in canonical form: no leading zero, and no `-0`. */
  lemma IntToStrCanonical(i: int)
    ensures IsCanonicalInt(IntToStr(i))
  {
    if i < 0 {
      assert IntToStr(i)[1..] == NatToStr(-i);
    }
  }

  /** Every canonical digit string is what `str` prints for its value, so
      `NatToStr` is the only canonical printing. */
  lemma {:induction false} CanonicalNatIsPrinted(s: string)
    requires IsCanonicalNat(s)
    ensures NatToStr(ParseNat(s)) == s
    decreases |s|
  {
    if |s| > 1 {
      var p := s[..|s| - 1];
      var d := s[|s| - 1] as int - '0' as int;
      assert IsDigit(s[|s| - 1]);
      assert p[0] == s[0];
      CanonicalNatIsPrinted(p);
      LeadingDigitPositive(p);
      var n := ParseNat(s);
      assert n == ParseNat(p) * 10 + d && 0 <= d < 10;
      assert n / 10 == ParseNat(p) && n % 10 == d;
      assert s == p + [DigitChar(d)];
    }
  }

  /** A digit string that does not start with `0` has a positive value. */
  lemma {:induction false} LeadingDigitPositive(s: string)
    requires |s| >= 1 && AllDigits(s) && s[0] != '0'
    ensures ParseNat(s) >= 1
    decreases |s|
  {
    if |s| > 1 {
      var p := s[..|s| - 1];
      assert p[0] == s[0];
      LeadingDigitPositive(p);
    } else {
      assert IsDigit(s[0]);
    }
  }

  /** Every canonical integer literal is what `str` prints for its value:
      together with `ParseIntToStr`, `IntToStr` is exactly Python's `str`. */
  lemma CanonicalIntIsPrinted(s: string)
    requires IsCanonicalInt(s)
    ensures IsIntLiteral(s) && IntToStr(ParseInt(s)) == s
  {
    if s[0] == '-' {
      var t := s[1..];
      CanonicalNatIsPrinted(t);
      LeadingDigitPositive(t);
      assert s == "-" + t;
    } else {
      CanonicalNatIsPrinted(s);
    }
  }

  /** A printed integer starts with a minus sign exactly when it is negative. */
  lemma IntToStrSign(i: int)
    ensures IntToStr(i)[0] == '-' <==> i < 0
  {
    if i >= 0 {
      assert IsDigit(NatToStr(i)[0]);
    }
  }

  /** Distinct integers print differently. */
  lemma IntToStrInjective(a: int, b: int)
    requires IntToStr(a) == IntToStr(b)
    ensures a == b
  {
    ParseIntToStr(a);
    ParseIntToStr(b);
  }

  /** A printed integer holds digits and a leading minus sign only, so no
      path separator and no `_`. */
  lemma IntToStrOmits(i: int, c: char)
    requires c != '-' && !IsDigit(c)
    ensures c !in IntToStr(i)
  {
    var s := IntToStr(i);
    assert forall k :: 0 <= k < |s| ==> s[k] != c by {
      if s[0] == '-' {
        assert forall k :: 1 <= k < |s| ==> s[1..][k - 1] == s[k];
      }
    }
  }

  // ---------------------------------------------------------------------------
  // posixpath.join
  // ---------------------------------------------------------------------------

  /** `posixpath.join(a, b)`: an absolute `b` replaces `a`; otherwise `b` is
      appended, with a `/` in between unless `a` is empty or ends in one. */
  function PosixJoin(a: string, b: string): (r: string)
    ensures |b| > 0 && b[0] == '/' ==> r == b
    ensures !(|b| > 0 && b[0] == '/') ==>
      && |a| + |b| <= |r| <= |a| + |b| + 1
      && r[..|a|] == a && r[|r| - |b|..] == b
      && (|r| == |a| + |b| + 1 <==> a != [] && a[|a| - 1] != '/')
      && (|r| == |a| + |b| + 1 ==> r[|a|] == '/')
  {
    if |b| > 0 && b[0] == '/' then b
    else if a == [] || a[|a| - 1] == '/' then a + b
    else a + "/" + b
  }
}

=== FILE: scan_config.dfy ===
/**
 * The hand-set parameters of the preprocessing script and the rules that
 * override them: once before the scans are processed, then at the start of
 * every scan.  The per-scan overrides rebind module globals, so they carry
 * over from one scan to the next; the loop over scans is modelled with
 * that state.
 */
module ScanConfig {
  import opened PyText
  import opened OutputNames

  /** The parameters the override rules read or write. */
  datatype Config = Config(
    scans: seq<int>,
    rockingAngle: string,
    useRawdata: bool,
    centerFft: string,
    fixSize: seq<int>,
    roiDetector: seq<int>,
    reloadPrevious: bool,
    normalizeFlux: bool)

  /** The centring options a multi-scan run keeps as they are. */
  const CenterFftAllowList: seq<string> := ["crop_asymmetric_ZYX", "pad_Z", "pad_asymmetric_ZYX"]

  /** The centring options the parameter's own documentation lists. */
  const DocumentedCenterFft: seq<string> :=
    ["crop_sym_ZYX", "crop_asym_ZYX", "pad_asym_Z_crop_sym_YX", "pad_sym_Z_crop_asym_YX",
     "pad_sym_Z", "pad_asym_Z", "pad_sym_ZYX", "pad_asym_ZYX", "do_nothing"]

  /** The overrides applied once, before the first scan: energy scans are
      always interpolated onto an orthogonal grid; a run over several scans
      falls back to no centring unless the option is on the allow-list, so
      that every scan keeps the same size; a fixed output size clears the
      detector region of interest. */
  function ResolveGlobal(c: Config): (r: Config)
    ensures r.(useRawdata := c.useRawdata, centerFft := c.centerFft, roiDetector := c.roiDetector) == c
    ensures r.centerFft == c.centerFft || r.centerFft == "do_nothing"
    ensures r.roiDetector == c.roiDetector || r.roiDetector == []
    ensures |c.fixSize| == 0 ==> r.roiDetector == c.roiDetector
    ensures r.useRawdata ==> c.useRawdata
  {
    var c1 := if c.rockingAngle == "energy" then c.(useRawdata := false) else c;
    var c2 := if |c1.scans| > 1 && c1.centerFft !in CenterFftAllowList then c1.(centerFft := "do_nothing") else c1;
    if |c2.fixSize| != 0 then c2.(roiDetector := []) else c2
  }

  /** The overrides applied at the start of every scan: a fixed output size
      disables centring; resuming a previous masking disables centring,
      cropping and normalisation, which were already applied. */
  function ScanStep(c: Config): (r: Config)
    ensures r.(centerFft := c.centerFft, fixSize := c.fixSize, normalizeFlux := c.normalizeFlux) == c
    ensures r.centerFft == c.centerFft || r.centerFft == "do_nothing"
    ensures r.fixSize == c.fixSize || r.fixSize == []
    ensures r.normalizeFlux ==> c.normalizeFlux
    ensures !c.reloadPrevious ==> r.fixSize == c.fixSize && r.normalizeFlux == c.normalizeFlux
    ensures r.centerFft == "do_nothing" <==> c.centerFft == "do_nothing" || |c.fixSize| != 0 || c.reloadPrevious
  {
    var c1 := if |c.fixSize| != 0 then c.(centerFft := "do_nothing") else c;
    if c1.reloadPrevious then c1.(centerFft := "do_nothing", fixSize := [], normalizeFlux := false) else c1
  }

  /** Energy scans never use the raw detector frame; other scans keep the
      user's choice. */
  lemma UseRawdataIff(c: Config)
    ensures ResolveGlobal(c).useRawdata <==> c.useRawdata && c.rockingAngle != "energy"
  {
  }

  /** With several scans, an option is kept exactly when it is on the
      allow-list; any other falls back to no centring.  With one scan the
      option is kept. */
  lemma MultiScanCenterFft(c: Config)
    ensures |c.scans| > 1 && c.centerFft !in CenterFftAllowList ==> ResolveGlobal(c).centerFft == "do_nothing"
    ensures |c.scans| <= 1 || c.centerFft in CenterFftAllowList ==> ResolveGlobal(c).centerFft == c.centerFft
  {
  }

  /** None of the documented options is on the allow-list, so a run over
      several scans never centres, whichever documented option is set. */
  lemma DocumentedOptionsCollapse(c: Config)
    requires |c.scans| > 1 && c.centerFft in DocumentedCenterFft
    ensures ResolveGlobal(c).centerFft == "do_nothing"
  {
    assert forall o :: o in DocumentedCenterFft ==> o !in CenterFftAllowList;
  }

  /** A fixed output size clears the region of interest and, once the scan
      starts, disables centring. */
  lemma FixSizeOverrides(c: Config)
    requires |c.fixSize| != 0
    ensures ResolveGlobal(c).roiDetector == []
    ensures ScanStep(ResolveGlobal(c)).centerFft == "do_nothing"
  {
  }

  /** Resuming a previous masking disables centring, cropping and
      normalisation. */
  lemma ReloadOverrides(c: Config)
    requires c.reloadPrevious
    ensures ScanStep(c).centerFft == "do_nothing" && ScanStep(c).fixSize == [] && !ScanStep(c).normalizeFlux
  {
  }

  /** Both override passes reach a fixed point at once: applying either a
      second time changes nothing. */
  lemma OverridesIdempotent(c: Config)
    ensures ResolveGlobal(ResolveGlobal(c)) == ResolveGlobal(c)
    ensures ScanStep(ScanStep(c)) == ScanStep(c)
  {
  }

  /** Fixed parts of the output names, shared by every scan. */
  datatype Naming = Naming(beamline: string, rootFolder: string, sampleName: string, userComment: string)

  /** What one scan is processed with: where its outputs go, the comment
      its file names start with, and the centring, cropping and
      normalisation it uses. */
  datatype ScanPlan = ScanPlan(
    scan: int, homeDir: string, saveDir: string, comment: string,
    centerFft: string, fixSize: seq<int>, normalizeFlux: bool)

  /** The plan for `scan` under the settings in force during that scan.
      `p10Specfile` is the spec file name the caller formats for it. */
  function PlanOf(c: Config, n: Naming, scan: int, p10Specfile: string): (p: ScanPlan)
    ensures p.scan == scan
    ensures |p.saveDir| > |p.homeDir| && p.saveDir[..|p.homeDir|] == p.homeDir
    ensures |p.comment| >= |n.userComment| && p.comment[..|n.userComment|] == n.userComment
  {
    var home := HomeDir(n.beamline, n.rootFolder, n.sampleName, p10Specfile, scan);
    ScanPlan(scan, home, SaveDir(home, c.useRawdata), ScanComment(n.userComment, c.useRawdata, c.normalizeFlux),
             c.centerFft, c.fixSize, c.normalizeFlux)
  }

  /** Without a fixed output size and without resuming a previous
      masking, no per-scan override fires: every scan keeps the resolved
      settings, so a scan is normalised exactly when `normalize_flux` is
      set and its comment carries `_norm` exactly then. */
  lemma PlanKeepsUntriggeredSettings(cfg: Config, n: Naming, scan: int, p10Specfile: string)
    requires |cfg.fixSize| == 0 && !cfg.reloadPrevious
    ensures ScanStep(ResolveGlobal(cfg)) == ResolveGlobal(cfg)
    ensures var p := PlanOf(ScanStep(ResolveGlobal(cfg)), n, scan, p10Specfile);
      p.normalizeFlux == cfg.normalizeFlux && p.centerFft == ResolveGlobal(cfg).centerFft
  {
  }

  /** The loop over scans: the global overrides, then for each scan the
      per-scan overrides (which persist into later scans) and the names
      derived from the settings then in force.  Because the per-scan
      overrides are idempotent, every scan is processed with the same
      settings, those of the first. */
  method PlanScans(cfg: Config, n: Naming, p10Specfiles: seq<string>) returns (plans: seq<ScanPlan>)
    requires |p10Specfiles| == |cfg.scans|
    ensures |plans| == |cfg.scans|
    ensures forall k :: 0 <= k < |plans| ==>
      plans[k] == PlanOf(ScanStep(ResolveGlobal(cfg)), n, cfg.scans[k], p10Specfiles[k])
  {
    var c := ResolveGlobal(cfg);
    plans := [];
    var i := 0;
    while i < |cfg.scans|
      invariant 0 <= i <= |cfg.scans| && |plans| == i
      invariant c == if i == 0 then ResolveGlobal(cfg) else ScanStep(ResolveGlobal(cfg))
      invariant forall k :: 0 <= k < i ==>
        plans[k] == PlanOf(ScanStep(ResolveGlobal(cfg)), n, cfg.scans[k], p10Specfiles[k])
    {
      OverridesIdempotent(ResolveGlobal(cfg));
      c := ScanStep(c);
      plans := plans + [PlanOf(c, n, cfg.scans[i], p10Specfiles[i])];
      i := i + 1;
    }
  }
}

=== FILE: session.dfy ===
/**
 * The state the two interactive masking figures share with their event
 * handlers.  In the script this state is a set of module globals
 * (`data`, `mask`, `updated_mask`, `original_data`, `xy`, `previous_axis`,
 * ...) that `on_click` and `press_key` read and rebind; here one
 * `MaskingFigure` object holds them for the lifetime of one figure:
 * the alien-removal figure (only keys are connected) or the polygon-mask
 * figure (keys and mouse clicks).
 *
 * The two foreign update functions the key handler calls are not modelled:
 * the tuple each would return arrives with the key event, and the handler
 * rebinds its state to it exactly as the script does.  A handler never
 * writes into an array itself.
 */
module Session {
  import opened Wrappers
  import opened Panes
  import opened Gesture
  import opened MaskAlgebra

  /** What the alien-removal update returns:
      `data, mask, width, max_colorbar, frame_index, stop_masking`. */
  datatype AliensReply = AliensReply(
    data: array3<int>, mask: array3<int>, width: int, maxColorbar: int,
    frameIndex: seq<int>, stopMasking: bool)

  /** What the polygon-mask update returns: `data, updated_mask, flag_pause,
      xy, width, max_colorbar, click_dim, stop_masking`. */
  datatype MaskReply = MaskReply(
    data: array3<int>, updatedMask: array3<int>, flagPause: bool, xy: seq<Vertex>,
    width: int, maxColorbar: int, clickDim: Option<int>, stopMasking: bool)

  /** An event delivered to the figure.  A key press carries the replies the
      foreign updates give if the handler calls them. */
  datatype FigureEvent =
    | ButtonPress(click: ClickEvent)
    | KeyPress(key: KeyEvent, aliens: AliensReply, polygon: MaskReply)

  /** The foreign updates keep the volumes' shape. */
  predicate ReplyFits(e: FigureEvent, nz: nat, ny: nat, nx: nat) {
    e.KeyPress? ==>
      && HasShape(e.aliens.data, nz, ny, nx) && HasShape(e.aliens.mask, nz, ny, nx)
      && HasShape(e.polygon.data, nz, ny, nx) && HasShape(e.polygon.updatedMask, nz, ny, nx)
  }

  predicate RepliesFit(events: seq<FigureEvent>, nz: nat, ny: nat, nx: nat) {
    forall i :: 0 <= i < |events| ==> ReplyFits(events[i], nz, ny, nx)
  }

  predicate AllButtonPresses(events: seq<FigureEvent>) {
    forall i :: 0 <= i < |events| ==> events[i].ButtonPress?
  }

  /** The mouse clicks among the events, in order. */
  function ButtonClicks(events: seq<FigureEvent>): seq<ClickEvent> {
    if events == [] then []
    else (if events[0].ButtonPress? then [events[0].click] else []) + ButtonClicks(events[1..])
  }

  /** What the handlers of a figure rebind: the volumes shown, the polygon
      figure's own mask, the frame indices, the box width, the colour bar
      maximum, the click gesture, and whether the figure is still open. */
  datatype FigureState = FigureState(
    data: array3<int>, mask: array3<int>, updatedMask: array3?<int>, frameIndex: seq<int>,
    width: int, maxColorbar: int, gesture: GestureState, open: bool)

  /** One event handled by the connected handlers: a mouse click goes
      through `on_click` in the polygon figure only; a key press over a
      visible pane, with a pointer position, rebinds the state to the reply of
      the figure's update, and a reply asking to stop closes the figure.  The
      alien figure never touches the gesture or the polygon mask; the polygon
      figure never rebinds the mask or the frame indices; nothing reopens a
      closed figure. */
  function Handle(flagAliens: bool, flagMask: bool, s: FigureState, e: FigureEvent): (t: FigureState)
    ensures t.open ==> s.open
    ensures !flagAliens ==> t.mask == s.mask && t.frameIndex == s.frameIndex
    ensures !flagMask ==> t.gesture == s.gesture && t.updatedMask == s.updatedMask
  {
    match e
    case ButtonPress(c) =>
      if flagMask then s.(gesture := OnClick(s.gesture, c)) else s
    case KeyPress(k, a, p) =>
      if PaneDim(k.pane).None? || k.pointer.None? then s
      else if flagAliens then
        s.(data := a.data, mask := a.mask, width := a.width, maxColorbar := a.maxColorbar,
           frameIndex := a.frameIndex, open := s.open && !a.stopMasking)
      else if flagMask then
        s.(data := p.data, updatedMask := p.updatedMask, width := p.width, maxColorbar := p.maxColorbar,
           gesture := GestureState(p.xy, if p.clickDim.None? then None else s.gesture.previousAxis, p.flagPause),
           open := s.open && !p.stopMasking)
      else s
  }

  /** `plt.show()` as a fold: events are handled in order until the figure
      is closed, and the later ones are dropped. */
  function Run(flagAliens: bool, flagMask: bool, s: FigureState, events: seq<FigureEvent>): (t: FigureState)
    ensures t.open ==> s.open
    ensures !flagAliens ==> t.mask == s.mask && t.frameIndex == s.frameIndex
    ensures !flagMask ==> t.gesture == s.gesture && t.updatedMask == s.updatedMask
    decreases |events|
  {
    if events == [] || !s.open then s
    else Run(flagAliens, flagMask, Handle(flagAliens, flagMask, s, events[0]), events[1..])
  }

  /** Once a key press closes the figure, no later event is handled. */
  lemma EventsAfterCloseDropped(flagAliens: bool, flagMask: bool, s: FigureState, events: seq<FigureEvent>)
    requires s.open && |events| > 0 && !Handle(flagAliens, flagMask, s, events[0]).open
    ensures Run(flagAliens, flagMask, s, events) == Handle(flagAliens, flagMask, s, events[0])
  {
  }

  /** In the polygon figure a run of mouse clicks alone keeps the figure
      open and changes nothing but the gesture, which moves as the click
      fold says. */
  lemma {:induction false} RunOfClicks(s: FigureState, events: seq<FigureEvent>)
    requires AllButtonPresses(events) && s.open
    ensures Run(false, true, s, events) == s.(gesture := Clicks(s.gesture, ButtonClicks(events)))
    decreases |events|
  {
    if events != [] {
      var c := events[0].click;
      var s' := s.(gesture := OnClick(s.gesture, c));
      assert Handle(false, true, s, events[0]) == s';
      assert AllButtonPresses(events[1..]) by {
        assert forall i :: 0 <= i < |events| - 1 ==> events[1..][i] == events[i + 1];
      }
      RunOfClicks(s', events[1..]);
      var rest := ButtonClicks(events[1..]);
      assert ButtonClicks(events) == [c] + rest;
      assert ([c] + rest)[0] == c && ([c] + rest)[1..] == rest;
    }
  }

  class MaskingFigure {
    /** Which figure this is: alien removal or polygon masking. */
    const flagAliens: bool
    const flagMask: bool
    const nz: nat
    const ny: nat
    const nx: nat
    /** The copy of the data taken when the figure opens. */
    const originalData: array3<int>
    /** The copy of the mask taken when the alien-removal figure opens. */
    const originalMask: array3?<int>

    var data: array3<int>
    var mask: array3<int>
    /** The polygon figure's own mask, merged into `mask` when it closes. */
    var updatedMask: array3?<int>
    var frameIndex: seq<int>
    var width: int
    var maxColorbar: int
    var xy: seq<Vertex>
    var previousAxis: Option<Pane>
    var flagPause: bool
    /** False once the handler has closed the figure. */
    var open: bool

    ghost predicate Valid()
      reads this
    {
      && flagAliens != flagMask
      && HasShape(data, nz, ny, nx) && HasShape(mask, nz, ny, nx)
      && HasShape(originalData, nz, ny, nx)
      && (flagAliens ==> originalMask != null && HasShape(originalMask, nz, ny, nx))
      && (flagMask ==> updatedMask != null && HasShape(updatedMask, nz, ny, nx) && mask != originalData)
    }

    function CurrentGesture(): GestureState
      reads this
    {
      GestureState(xy, previousAxis, flagPause)
    }

    function State(): FigureState
      reads this
    {
      FigureState(data, mask, updatedMask, frameIndex, width, maxColorbar, CurrentGesture(), open)
    }

    /** The alien-removal figure: copies of data and mask are kept, frames
        start at the first unpadded ones, box width and colour bar at 5. */
    constructor AlienStage(data0: array3<int>, mask0: array3<int>, startingFrame: seq<int>)
      requires SameShape(data0, mask0)
      ensures Valid() && flagAliens && open
      ensures HasShape(data0, nz, ny, nx)
      ensures data == data0 && mask == mask0 && frameIndex == startingFrame
      ensures width == 5 && maxColorbar == 5
      ensures fresh(originalData) && fresh(originalMask)
      ensures forall z, y, x :: 0 <= z < nz && 0 <= y < ny && 0 <= x < nx ==>
        originalData[z, y, x] == data0[z, y, x] && originalMask[z, y, x] == mask0[z, y, x]
    {
      flagAliens, flagMask := true, false;
      nz, ny, nx := data0.Length0, data0.Length1, data0.Length2;
      var dataCopy := Copy(data0);
      var maskCopy := Copy(mask0);
      originalData, originalMask := dataCopy, maskCopy;
      data, mask, updatedMask := data0, mask0, null;
      frameIndex := startingFrame;
      width, maxColorbar := 5, 5;
      xy, previousAxis, flagPause := [], None, false;
      open := true;
    }

    /** The polygon-mask figure: the data is copied before masked voxels
        are emptied for display, the polygon mask starts empty, no pane is
        bound and no vertex collected. */
    constructor PolygonStage(data0: array3<int>, mask0: array3<int>)
      requires SameShape(data0, mask0) && data0 != mask0
      modifies data0
      ensures Valid() && flagMask && open
      ensures HasShape(data0, nz, ny, nx)
      ensures data == data0 && mask == mask0
      ensures width == 0 && maxColorbar == 5
      ensures CurrentGesture() == GestureState([], None, false)
      ensures fresh(originalData) && fresh(updatedMask)
      ensures forall z, y, x :: 0 <= z < nz && 0 <= y < ny && 0 <= x < nx ==>
        && originalData[z, y, x] == old(data0[z, y, x])
        && updatedMask[z, y, x] == 0
        && data0[z, y, x] == if mask0[z, y, x] == 1 then 0 else old(data0[z, y, x])
    {
      flagAliens, flagMask := false, true;
      nz, ny, nx := data0.Length0, data0.Length1, data0.Length2;
      var dataCopy := Copy(data0);
      originalData, originalMask := dataCopy, null;
      var polygonMask := Zeros(data0.Length0, data0.Length1, data0.Length2);
      ZeroMasked(data0, mask0);
      data, mask, updatedMask := data0, mask0, polygonMask;
      frameIndex := [];
      width, maxColorbar := 0, 5;
      xy, previousAxis, flagPause := [], None, false;
      open := true;
    }

    /** `on_click`: the vertex list and the bound pane follow the gesture
        step function; nothing else changes. */
    method Click(ev: ClickEvent)
      requires Valid() && flagMask
      modifies this`xy, this`previousAxis
      ensures Valid()
      ensures CurrentGesture() == OnClick(old(CurrentGesture()), ev)
    {
      match ev {
        case Outside =>
        case InPane(pane, x, y) =>
          if !flagPause {
            if previousAxis == Some(pane) || previousAxis.None? {
              xy := xy + [(x, y)];
              if previousAxis.None? {
                previousAxis := Some(pane);
              }
            } else {
              xy := [];
              previousAxis := None;
            }
          }
      }
    }

    /** `press_key`: the key is routed as `Dispatch` says; with no call the
        state is untouched, otherwise the state is rebound to the reply, the
        bound pane is released when the reply has no click axis, and the
        figure closes when the reply asks to stop. */
    method PressKey(ev: KeyEvent, aliens: AliensReply, polygon: MaskReply) returns (call: ForeignCall)
      requires Valid()
      requires ReplyFits(KeyPress(ev, aliens, polygon), nz, ny, nx)
      modifies this
      ensures Valid()
      ensures call == Dispatch(ev, flagAliens, flagMask, old(previousAxis), nz, ny, nx)
      ensures call.NoCall? ==> unchanged(this)
      ensures State() == Handle(flagAliens, flagMask, old(State()), KeyPress(ev, aliens, polygon))
    {
      call := Dispatch(ev, flagAliens, flagMask, previousAxis, nz, ny, nx);
      if PaneDim(ev.pane).Some? && ev.pointer.Some? {
        if flagAliens {
          TakeAliensReply(aliens);
        } else if flagMask {
          TakeMaskReply(polygon);
        }
      }
    }

    /** Rebinding to what the alien-removal update returned. */
    method TakeAliensReply(aliens: AliensReply)
      requires Valid() && flagAliens
      requires HasShape(aliens.data, nz, ny, nx) && HasShape(aliens.mask, nz, ny, nx)
      modifies this`data, this`mask, this`width, this`maxColorbar, this`frameIndex, this`open
      ensures Valid()
      ensures data == aliens.data && mask == aliens.mask
      ensures width == aliens.width && maxColorbar == aliens.maxColorbar && frameIndex == aliens.frameIndex
      ensures open == (old(open) && !aliens.stopMasking)
    {
      data, mask := aliens.data, aliens.mask;
      width, maxColorbar, frameIndex := aliens.width, aliens.maxColorbar, aliens.frameIndex;
      if aliens.stopMasking {
        open := false;
      }
    }

    /** Rebinding to what the polygon-mask update returned. */
    method TakeMaskReply(polygon: MaskReply)
      requires Valid() && flagMask
      requires HasShape(polygon.data, nz, ny, nx) && HasShape(polygon.updatedMask, nz, ny, nx)
      modifies this`data, this`updatedMask, this`flagPause, this`xy, this`width, this`maxColorbar,
        this`previousAxis, this`open
      ensures Valid()
      ensures data == polygon.data && updatedMask == polygon.updatedMask
      ensures width == polygon.width && maxColorbar == polygon.maxColorbar
      ensures xy == polygon.xy && flagPause == polygon.flagPause
      ensures previousAxis == (if polygon.clickDim.None? then None else old(previousAxis))
      ensures open == (old(open) && !polygon.stopMasking)
    {
      data, updatedMask := polygon.data, polygon.updatedMask;
      flagPause, xy := polygon.flagPause, polygon.xy;
      width, maxColorbar := polygon.width, polygon.maxColorbar;
      if polygon.clickDim.None? {
        previousAxis := None;
      }
      if polygon.stopMasking {
        open := false;
      }
    }

    /** `plt.show()`: events are handed to the connected handlers in order
        until the figure is closed; the state afterwards is the fold `Run`. */
    method Show(events: seq<FigureEvent>)
      requires Valid() && RepliesFit(events, nz, ny, nx)
      modifies this
      ensures Valid()
      ensures State() == Run(flagAliens, flagMask, old(State()), events)
    {
      var i := 0;
      while i < |events| && open
        invariant 0 <= i <= |events|
        invariant Valid()
        invariant Run(flagAliens, flagMask, State(), events[i..]) == Run(flagAliens, flagMask, old(State()), events)
      {
        ghost var before := State();
        assert events[i..][1..] == events[i + 1..];
        match events[i] {
          case ButtonPress(c) =>
            if flagMask {
              Click(c);
            }
          case KeyPress(k, a, p) =>
            var call := PressKey(k, a, p);
        }
        assert State() == Handle(flagAliens, flagMask, before, events[i]);
        i := i + 1;
      }
      assert i == |events| ==> events[i..] == [];
    }

    /** Closing the polygon figure: the polygon mask is merged into the mask
        and `data` is rebound to the copy taken when the figure opened. */
    method EndPolygonStage()
      requires Valid() && flagMask
      modifies this`data, mask
      ensures Valid()
      ensures data == originalData
      ensures forall z, y, x :: 0 <= z < nz && 0 <= y < ny && 0 <= x < nx ==>
        mask[z, y, x] == if old(updatedMask[z, y, x]) != 0 then 1 else old(mask[z, y, x])
    {
      MergeMask(mask, updatedMask);
      data := originalData;
    }
  }

  /** The whole polygon-masking stage, from opening the figure to merging
      its mask: afterwards `data` holds exactly the counts it held before
      (masked voxels were emptied only for display), and the mask has only
      gained masked voxels. */
  method MaskPolygons(data0: array3<int>, mask0: array3<int>, events: seq<FigureEvent>)
    returns (data: array3<int>)
    requires SameShape(data0, mask0) && data0 != mask0
    requires RepliesFit(events, data0.Length0, data0.Length1, data0.Length2)
    modifies data0, mask0
    ensures fresh(data) && SameShape(data, mask0)
    ensures forall z, y, x :: 0 <= z < data.Length0 && 0 <= y < data.Length1 && 0 <= x < data.Length2 ==>
      data[z, y, x] == old(data0[z, y, x])
    ensures forall z, y, x :: 0 <= z < mask0.Length0 && 0 <= y < mask0.Length1 && 0 <= x < mask0.Length2 ==>
      mask0[z, y, x] == 1 || mask0[z, y, x] == old(mask0[z, y, x])
  {
    var figure := new MaskingFigure.PolygonStage(data0, mask0);
    figure.Show(events);
    figure.EndPolygonStage();
    data := figure.data;
  }
}

=== FILE: wrappers.dfy ===
/** Failure-compatible wrappers shared by the other modules. */
module Wrappers {

  datatype Option<T> = None | Some(value: T)

  datatype Result<T, E> = Success(value: T) | Failure(error: E)
}
